=== FILE: README.md ===
# Gym subscription data generator: a Dafny model

This project models the simulation core of `scripts/generate_data.py`. That
script synthesises a relational dataset for a subscription fitness club:
customers, one subscription per customer with monthly churn, optional add-on
services, and day-by-day facility visits.

Every random draw is an input. The numpy generator is replaced by an
infinite stream of reals (`Draws.Stream`) read left to right from a cursor.
`rng.random`, `rng.integers`, `rng.choice` and `rng.normal` read one value
per sampled element, so a call with `size=n` (lines 38-47) reads `n` values
and a scalar call reads one. Each stage is then a pure function of its
parameters, the stream and a stream position, and returns the next position.
So every invariant below holds for every stream. The draw order is the
source's:

1. six blocks of `n` draws for customers: signup offsets, segments, genders,
   then the student, adult and senior age columns;
2. `n` plan choices;
3. the survival loops, customer by customer;
4. three add-on draws per customer;
5. the visit walks, subscription by subscription: one draw per day, plus
   three more on a day with a visit (hour, minute, duration sample).

Stages 1, 2 and 4 read a fixed number of draws, and their contracts say so:
`6n`, `n` and `3n`. The survival loops and the visit walks read a number of
draws that depends on the draws themselves. For them the contracts give the
position exactly in terms of what was read:

- a survival loop reads as many draws as the months it counts
  (`Subscriptions.MonthsAlive`), and `Subscriptions.LoopStart` folds those
  counts over the customers;
- a walk reads one draw per day of its window plus three per visit, and
  `Visits.GroupStart` folds those counts over the subscriptions.

How draws become values:

- A uniform draw is read as a number in [0, 1).
- `rng.integers(lo, hi)` is the inverse CDF `lo + floor(x * (hi - lo))`. A
  value outside [0, 1) wraps into the range, so the range holds for every
  real.
- `rng.choice(…, p=…)` is numpy's cumulative-weight search (`Draws.Pick`).
- A normal draw is the sample value itself.

Dates are proleptic Gregorian civil dates (`Calendar.Date`), ordered by
their day ordinal. That ordinal is the one Python's `date.toordinal` gives.
`DateOffset(months=k)` is `Calendar.AddMonths`, which clamps the day to the
end of the target month. Timestamps have minute resolution, and their
instant is `Calendar.Minutes`.

Modules: `Calendar`, `Draws`, `Optional`, `Params` (the static parameter set
and catalogues), `Customers`, `Subscriptions`, `Addons`, `Visits`, and
`Generator` (the whole run and its referential-integrity contract).

Facts about the code that the model follows:

- Visit durations are truncated by `int()` (line 142). Clipping to [30, 150]
  comes first, so truncation here equals flooring.
- A cancelled subscription's end date is never after 2024-12-31 (line 83):
  an end date past the horizon becomes null and the status `active`.
- The script adds no check of its own on the probability vectors passed to
  `rng.choice` (lines 41-42, 67 and 125). numpy's `choice` raises
  `ValueError` for a `p` with a negative entry or one that does not sum to
  one. The constant tables (lines 41-42 and 60-62) sum to one, and lines 67
  and 124 divide by the sum, so that error cannot arise. `Pick` is total for
  any weights, and the model has no error path there.
- Each visit's checkout is its check-in plus the duration in minutes
  (line 144). The visit record stores the check-in and the duration;
  `Visits.Checkout` derives the checkout from them.

Assumption: line 136 treats a missing end date as falsy and falls back to
the horizon's last day. After `pd.DataFrame(subs)` (line 99) that missing
value is a pandas missing timestamp, and the script's text does not show
whether it is falsy. The model takes the evident intent: an open
subscription is walked up to 2024-12-31 (`Visits.EffectiveEnd`).

## Model

| member | source | states |
|---|---|---|
| Calendar.NextDay | scripts/generate_data.py:154 | `d + Timedelta(days=1)` is a valid date exactly one ordinal later, across month and year ends |
| Calendar.AddDays | scripts/generate_data.py:38-39 | adding `n` days gives a valid date whose ordinal is `n` larger |
| Calendar.AddMonths | scripts/generate_data.py:82 | `start + DateOffset(months=n)` is a valid date `n` calendar months later; its day is the start's day, or the last day of a shorter target month |
| Calendar.AddMonthsAdvances | scripts/generate_data.py:82 | adding one month or more gives a strictly later date |
| Calendar.AddMonthsIncreasing | scripts/generate_data.py:82 | more months give a strictly later end date |
| Calendar.AddMonthsExamples | scripts/generate_data.py:82 | concrete clamping cases: Jan 31 + 1 month is Feb 28, or Feb 29 in a leap year |
| Calendar.AddMinutes | scripts/generate_data.py:144 | `checkin + Timedelta(minutes=m)` is a valid timestamp exactly `m` minutes later, rolling into the next day when needed |
| Calendar.DayOfMinutes | scripts/generate_data.py:143 | a timestamp's instant, divided into whole days, gives back its calendar day |
| Params.HorizonIsTwoYears | scripts/generate_data.py:13-14 | the horizon 2023-01-01..2024-12-31 holds 731 days, and 2023-01-01 has Python's ordinal 738521 |
| Params.PlanById | scripts/generate_data.py:20-25 | the catalogue lists plans 1..4 in id order, so plan `pid` is the catalogue entry with that id |
| Draws.IntIn | scripts/generate_data.py:46-47 | `rng.integers(lo, hi)` yields a value in [lo, hi) for every draw |
| Draws.IntInBucket | scripts/generate_data.py:38 | on a unit draw `x`, the value is the bucket of width 1/(hi-lo) holding `x` |
| Draws.IntInOnto | scripts/generate_data.py:38 | every value of [lo, hi) comes from some unit draw |
| Draws.Pick | scripts/generate_data.py:67 | `rng.choice` with weights returns an index in range, namely the first whose cumulative weight exceeds `u` times the total |
| Draws.PickIsBucket | scripts/generate_data.py:67 | with non-negative weights the chosen index is exactly the one whose cumulative slice holds the draw |
| Draws.PickUniformOnto | scripts/generate_data.py:118-125 | with equal weights every index is chosen by some unit draw |
| Draws.Clip | scripts/generate_data.py:142 | `np.clip` lies in [lo, hi]: a value inside is kept, a value below becomes `lo`, a value above becomes `hi` |
| Draws.Truncate | scripts/generate_data.py:142 | `int()` truncates toward zero: within one below a non-negative value, within one above a negative one |
| Customers.SignupDate | scripts/generate_data.py:38-39 | the signup date is the horizon start plus the drawn offset in [0, 730], so it lies within 2023-01-01..2024-12-31 |
| Customers.SignupDateOnto | scripts/generate_data.py:38-39 | every day of the horizon, both ends included, is a possible signup date |
| Customers.SegmentOf | scripts/generate_data.py:41 | the segment is Student exactly for draws below 0.22 and Senior exactly for draws at or above 0.22 + 0.68, so Adult in between |
| Customers.GenderOf | scripts/generate_data.py:42 | the gender is M exactly for draws below 0.52, F otherwise |
| Customers.AgeOf | scripts/generate_data.py:44-48 | the age kept is in [18,26) for students, [26,56) for adults and [56,71) for seniors |
| Customers.CustomerAt | scripts/generate_data.py:36-48 | customer `i` of `n` has id `i + 1`; its signup offset is the `integers` value of draw `pos + i`; its segment and gender come from draws `pos + n + i` and `pos + 2n + i`; its age is its segment's column of draws `pos + 3n + i`, `pos + 4n + i`, `pos + 5n + i`; so its signup date is in the horizon and its age in its segment's range |
| Customers.GenerateCustomers | scripts/generate_data.py:36-56 | the table has `n` customers, entry `i` being the customer drawn from column position `i` of each of the six blocks, with ids 1..n; generating it consumes `6n` draws |
| Customers.CustomerDependsOnOwnDraws | scripts/generate_data.py:38-48 | a customer's attributes depend only on its own six draws, one in each column block |
| Subscriptions.ChoosePlan | scripts/generate_data.py:66-69 | the chosen plan id is in the catalogue, 1..4 |
| Subscriptions.ChoosePlans | scripts/generate_data.py:66-69 | one catalogue plan per customer |
| Subscriptions.ChoosePlansAt | scripts/generate_data.py:66-69 | customer `i`'s plan is picked by draw `pos + i` with its own segment's weights: plans are drawn in customer order, one draw each |
| Subscriptions.Survive | scripts/generate_data.py:78-80 | the loop reads one draw per counted month and stops at the 24-month cap or at a draw at or below the hazard |
| Subscriptions.SurviveSurvived | scripts/generate_data.py:79 | every draw the loop read before its last one exceeded the hazard |
| Subscriptions.MonthsAlive | scripts/generate_data.py:78-80 | `months_alive` is in [1, 24]; exactly `months_alive` draws are read, the capped month included; below the cap the last draw is at or below the hazard |
| Subscriptions.MonthsAliveSurvived | scripts/generate_data.py:79-80 | every draw before the last one read exceeded the hazard |
| Subscriptions.MonthsAliveUnique | scripts/generate_data.py:78-80 | any month count that meets that stopping description is the one the loop returns |
| Subscriptions.SurviveAntitoneInHazard | scripts/generate_data.py:71-80 | on the same draws, a plan with a lower hazard keeps a customer at least as long |
| Subscriptions.Censor | scripts/generate_data.py:82-87 | status is `active` iff the end date is null iff start + months is past the horizon; otherwise the end date is start + months, with start < end <= 2024-12-31 |
| Subscriptions.Subscribe | scripts/generate_data.py:76-97 | the subscription starts on the signup date with the chosen plan; its survival loop reads from `pos` on that plan's hazard, and its end date and status are the censored outcome of exactly the months that loop counts |
| Subscriptions.SimulateSubscriptions | scripts/generate_data.py:73-99 | one consistent subscription per customer, ids from 1, on that customer's plan and signup date; the loops run customer by customer on each plan's hazard, each deciding its own subscription, and the stage stops where the last loop stops |
| Subscriptions.AllChurnedAt | scripts/generate_data.py:76-87 | subscription `i`'s end date and status are the censored outcome of the survival loop on its plan's hazard that starts where customer `i - 1`'s loop stopped |
| Addons.Offer | scripts/generate_data.py:104-109 | an add-on row appears iff its draw is below the segment's adoption rate, at the add-on's fixed price |
| Addons.CustomerAddons | scripts/generate_data.py:103-109 | a customer's add-ons are drinks, sauna, personal training in that order, with no repeats; each kind is present iff its own draw passes; prices are 400/1000/8000 |
| Addons.CustomerAddonsDistinct | scripts/generate_data.py:103-109 | no kind appears twice for one customer |
| Addons.AllAddons | scripts/generate_data.py:102-111 | three draws per customer; every row was earned by its own customer's draw for its kind; every passing draw gives its row; with distinct customer ids no (customer, kind) pair appears twice and the rows come in the order of their earning draws: customer by customer, then drinks, sauna, personal training |
| Addons.AddonIffDraw | scripts/generate_data.py:103-109 | with distinct customer ids, customer `k` holds add-on `kind` exactly when that kind's draw for `k` passed |
| Visits.SampleCheckinTime | scripts/generate_data.py:116-125 | check-in hour is in 7..16 on off-peak plans and in 6..21 otherwise; minute is in [0, 60) |
| Visits.CheckinHourOnto | scripts/generate_data.py:116-125 | every candidate hour of the tier is drawn by some unit draw |
| Visits.Duration | scripts/generate_data.py:142 | the duration is a whole number in [30, 150] whatever the normal sample |
| Visits.DurationMeaning | scripts/generate_data.py:142 | samples below 30 give 30, above 150 give 150, and in between the sample truncated to whole minutes |
| Visits.Checkout | scripts/generate_data.py:144 | the checkout is a valid timestamp exactly the duration after the check-in; for a duration under a day it falls on the check-in day or the next |
| Visits.EffectiveEnd | scripts/generate_data.py:136 | a recorded end date is the last walked day; an open subscription, whose end date is missing, is walked to the horizon's end 2024-12-31 (the missing value taken as falsy); for a consistent subscription the last day is valid and within the horizon |
| Visits.VisitDay | scripts/generate_data.py:140-153 | a visit happens iff the day's draw is below 0.35; it is checked in that day, is well formed, and reads three more draws: its hour is the tier's hour picked by the next draw, its minute the `integers(0, 60)` value of the one after, and its duration the clipped, truncated value of the third |
| Visits.WalkDays | scripts/generate_data.py:138-154 | visits fall in [start, end], on strictly increasing days, numbered consecutively; each visit's day draw fell below 0.35, the draws after it gave its minute and duration, and every day without a visit had its draw at or above 0.35, the day draw of a day sitting one draw per earlier day and three per earlier visit after the start; the walk reads one draw per day plus three per visit |
| Visits.SubscriptionVisits | scripts/generate_data.py:130-154 | each visit belongs to its subscription: same customer, check-in day within [start date, effective end], an hour allowed by the plan's tier; the visits are exactly the days the walk's draws select |
| Visits.AllVisits | scripts/generate_data.py:127-156 | each subscription's visits belong to it and are in date order; the table's visit ids run consecutively; the walks read one after another, each group decided by its own walk's draws |
| Visits.GroupsDecidedAt | scripts/generate_data.py:130-154 | subscription `i`'s visits are the days selected by the walk that starts reading where subscription `i - 1`'s walk stopped |
| Visits.FlattenOneVisitPerDay | scripts/generate_data.py:138-140 | concatenating per-subscription visits keeps at most one visit per customer per day |
| Generator.Enrol | scripts/generate_data.py:36-99 | the customers are the six-block customer table drawn from position 0 (customer `i` is `CustomerAt(s, 0, n, i)`), well formed, with ids 1..n; the plan choices are read right after the six customer blocks, one per customer; subscription `i` belongs to customer `i + 1` on its chosen plan; the survival loops start at draw `7n` and each decides its own subscription |
| Generator.AddonTable | scripts/generate_data.py:102-111 | every add-on was earned by its own customer's draw and names a customer of the table; customer `i` holds add-on `kind` exactly when its own draw for that kind passed; no (customer, kind) pair appears twice; rows are sorted by customer id, then drinks, sauna, personal training; three draws per customer |
| Generator.GeneratedAddons | scripts/generate_data.py:102-111 | for customers numbered 1..n, the add-on table's rows name customers of the table, follow their draws in both directions, never repeat a (customer, kind) pair and are sorted by customer id, then by kind in emission order |
| Generator.VisitTable | scripts/generate_data.py:127-156 | visit ids run from 1; each visit lies in its customer's subscription window; no customer visits twice on one day; the table is the concatenation of per-subscription groups, each in date order, each visit in its own subscription's group, and each group decided by its own walk's draws |
| Generator.Generate | scripts/generate_data.py:36-156 | the tables are referentially intact; customer `i` is the one drawn from the six blocks at draw 0; customers and subscriptions are numbered 1..n; subscription `i`'s plan is the one drawn for customer `i`; its lifetime comes from its own survival loop, from draw `7n` on; add-ons are each earned by their own draw after the last loop, follow their draws in both directions, have no repeated pair and are sorted by customer, then kind; the visit walks, returned grouped by subscription, start three draws per customer later; each group is in date order, holds only its own subscription's visits and is decided by its walk's draws; visit ids run from 1; at most one visit per customer per day |
| Generator.GeneratedVisitsOwned | scripts/generate_data.py:130-154 | in the flattened visit table, each visit belongs to the subscription of the customer it names, and no customer visits twice on one day |

## Left out

- File and console output (lines 9-10 and 159-170) is not modelled: it is plumbing.
- numpy's bit generator, the seed and byte-identical reproducibility (lines 6-7) are not modelled. An abstract stream of draws stands in, one value per sampled element; a call with `size=n` reads `n`. Each stage is a pure function of that stream, so equal streams give equal tables.
- numpy's own sampling internals are not modelled. A rejection-sampled `integers` or a ziggurat `normal` may read several raw words; here each reads one draw.
- Draws and weights are exact reals, not floats. The division in `p / p.sum()` (lines 67 and 124) is replaced by comparing against `u` times the total weight.
- Distributional claims are not modelled: churn rates, segment and gender frequencies, and the normal law's mean 70 and deviation 25. Only the threshold tests, the inverse-CDF mappings and the clipping are.
- Visits.WalkDays: ties each visit's minute and duration to the draws after its day draw (`Visits.DrawDecided`) but not its hour, which it only keeps among the tier's allowed hours; `Visits.VisitDay` states which draw picks the hour. `SubscriptionVisits`, `AllVisits`, `VisitTable` and `Generate` inherit this.
- Visits.SampleCheckinTime: for a draw at or above the top of the cumulative weights, which no unit draw reaches, `Pick` returns the last index where numpy's search would run past the end.
- pandas DataFrame construction, dtypes and column order (lines 50-56, 99, 111, 156) are not modelled. Tables are sequences of datatypes.
- The stored checkout column (lines 144 and 150) is not a field of `Visits.Visit`. `Visits.Checkout` computes it from the check-in and the duration, as line 144 does.
- The unused `CAPACITY` constant (line 17) is left out.
- The population size 2500 (line 16) is `Params.NCustomers`. `Generator.Generate` takes the size as a parameter, so its contracts hold for every size.

=== FILE: addons.dfy ===
/** Add-on sampling: for each customer, three threshold tests on three
    consecutive draws, for drinks, sauna and personal training in that
    order; each passing test adds one row at the add-on's fixed price. */
module Addons {
  import opened Draws
  import opened Params
  import opened Customers

  datatype Addon = Addon(customerId: int, kind: AddonKind, monthlyPrice: int)

  const AddonDraws := 3

  /** Position of an add-on kind in the fixed emission order. */
  function Rank(kind: AddonKind): nat {
    match kind
    case Drinks => 0
    case Sauna => 1
    case PersonalTraining => 2
  }

  /** The row for `kind` if draw `x` falls below the segment's adoption rate. */
  function Offer(x: real, c: Customer, kind: AddonKind): (rows: seq<Addon>)
    ensures |rows| <= 1
    ensures |rows| == 1 <==> x < AddonRate(kind, c.segment)
    ensures forall a :: a in rows ==> a == Addon(c.id, kind, AddonPrice(kind))
  {
    if x < AddonRate(kind, c.segment) then [Addon(c.id, kind, AddonPrice(kind))] else []
  }

  /** The add-on rows of customer `c`, reading draws `pos`, `pos + 1`, `pos + 2`. */
  function CustomerAddons(s: Stream, pos: nat, c: Customer): (rows: seq<Addon>)
    ensures |rows| <= 3
    ensures forall i, j :: 0 <= i < j < |rows| ==> Rank(rows[i].kind) < Rank(rows[j].kind)
    ensures forall a :: a in rows ==> a.customerId == c.id && a.monthlyPrice == AddonPrice(a.kind)
    ensures forall kind :: Addon(c.id, kind, AddonPrice(kind)) in rows <==> s(pos + Rank(kind)) < AddonRate(kind, c.segment)
  {
    Offer(s(pos), c, Drinks) + Offer(s(pos + 1), c, Sauna) + Offer(s(pos + 2), c, PersonalTraining)
  }

  /** A customer's add-ons never repeat a kind. */
  lemma CustomerAddonsDistinct(s: Stream, pos: nat, c: Customer)
    ensures var rows := CustomerAddons(s, pos, c);
      forall i, j :: 0 <= i < j < |rows| ==> rows[i].kind != rows[j].kind
  {
  }

  /** Stream position of the draw that decides add-on `kind` for customer
      `k` (0-based) when the add-on draws start at `pos`: three per customer,
      in the order drinks, sauna, personal training. */
  function AddonDraw(pos: nat, k: nat, kind: AddonKind): nat {
    pos + 3 * k + Rank(kind)
  }

  predicate DistinctIds(cs: seq<Customer>) {
    forall i, j :: 0 <= i < j < |cs| ==> cs[i].id != cs[j].id
  }

  /** Row `a` is customer `k`'s add-on of its kind, at the fixed price, and
      that kind's draw passed for the customer's segment. */
  predicate Earned(a: Addon, s: Stream, pos: nat, cs: seq<Customer>, k: int) {
    && 0 <= k < |cs|
    && a == Addon(cs[k].id, a.kind, AddonPrice(a.kind))
    && s(AddonDraw(pos, k, a.kind)) < AddonRate(a.kind, cs[k].segment)
  }

  /** Rows `rows` appear in the order of the draws that earned them: for
      distinct customer ids a row's earning draw is unique, and an earlier
      row's comes first. */
  ghost predicate DrawOrdered(rows: seq<Addon>, s: Stream, pos: nat, cs: seq<Customer>) {
    forall i, j, ki, kj :: 0 <= i < j < |rows| && Earned(rows[i], s, pos, cs, ki) && Earned(rows[j], s, pos, cs, kj) ==>
      AddonDraw(pos, ki, rows[i].kind) < AddonDraw(pos, kj, rows[j].kind)
  }

  /** The add-on table: the rows of every customer in customer order, three
      draws per customer from `pos` on. Every row was earned by its own
      draw, every passing draw gave a row, and with distinct customer ids no
      customer holds the same add-on twice and the rows follow the order of
      their draws: by customer, then drinks, sauna, personal training. */
  function AllAddons(s: Stream, pos: nat, cs: seq<Customer>): (r: (seq<Addon>, nat))
    ensures r.1 == pos + AddonDraws * |cs|
    ensures |r.0| <= 3 * |cs|
    ensures forall a :: a in r.0 ==> exists k :: Earned(a, s, pos, cs, k)
    ensures forall k, kind :: 0 <= k < |cs| && s(AddonDraw(pos, k, kind)) < AddonRate(kind, cs[k].segment) ==>
      Addon(cs[k].id, kind, AddonPrice(kind)) in r.0
    ensures DistinctIds(cs) ==> forall i, j :: 0 <= i < j < |r.0| ==>
      r.0[i].customerId != r.0[j].customerId || r.0[i].kind != r.0[j].kind
    ensures DistinctIds(cs) ==> DrawOrdered(r.0, s, pos, cs)
    decreases |cs|
  {
    if |cs| == 0 then ([], pos)
    else
      var own := CustomerAddons(s, pos, cs[0]);
      var next0 := pos + AddonDraws;
      var (rest, next) := AllAddons(s, next0, cs[1..]);
      PrependEarned(s, pos, next0, cs, own, rest);
      PrependComplete(s, pos, next0, cs, own, rest);
      PrependDistinct(s, pos, next0, cs, own, rest);
      PrependOrdered(s, pos, next0, cs, own, rest);
      (own + rest, next)
  }

  /** With distinct customer ids, customer `k` holds add-on `kind` exactly
      when that kind's draw for the customer passed. */
  lemma AddonIffDraw(s: Stream, pos: nat, cs: seq<Customer>, k: nat, kind: AddonKind)
    requires DistinctIds(cs) && k < |cs|
    ensures Addon(cs[k].id, kind, AddonPrice(kind)) in AllAddons(s, pos, cs).0
      <==> s(AddonDraw(pos, k, kind)) < AddonRate(kind, cs[k].segment)
  {
    var rows := AllAddons(s, pos, cs).0;
    var a := Addon(cs[k].id, kind, AddonPrice(kind));
    if a in rows {
      var j :| Earned(a, s, pos, cs, j);
      assert cs[j].id == cs[k].id;
      assert j == k;
    }
  }

  lemma PrependEarned(s: Stream, pos: nat, next: nat, cs: seq<Customer>, own: seq<Addon>, rest: seq<Addon>)
    requires |cs| > 0 && next == pos + 3
    requires own == CustomerAddons(s, pos, cs[0])
    requires forall a :: a in rest ==> exists k :: Earned(a, s, next, cs[1..], k)
    ensures forall a :: a in own + rest ==> exists k :: Earned(a, s, pos, cs, k)
  {
    forall a | a in own + rest
      ensures exists k :: Earned(a, s, pos, cs, k)
    {
      if a in own {
        assert AddonDraw(pos, 0, a.kind) == pos + Rank(a.kind);
        assert Earned(a, s, pos, cs, 0);
      } else {
        var k :| Earned(a, s, next, cs[1..], k);
        assert AddonDraw(next, k, a.kind) == AddonDraw(pos, k + 1, a.kind);
        assert cs[1..][k] == cs[k + 1];
        assert Earned(a, s, pos, cs, k + 1);
      }
    }
  }

  lemma PrependComplete(s: Stream, pos: nat, next: nat, cs: seq<Customer>, own: seq<Addon>, rest: seq<Addon>)
    requires |cs| > 0 && next == pos + 3
    requires own == CustomerAddons(s, pos, cs[0])
    requires forall k, kind :: 0 <= k < |cs[1..]| && s(AddonDraw(next, k, kind)) < AddonRate(kind, cs[1..][k].segment) ==>
      Addon(cs[1..][k].id, kind, AddonPrice(kind)) in rest
    ensures forall k, kind :: 0 <= k < |cs| && s(AddonDraw(pos, k, kind)) < AddonRate(kind, cs[k].segment) ==>
      Addon(cs[k].id, kind, AddonPrice(kind)) in own + rest
  {
    forall k, kind | 0 <= k < |cs| && s(AddonDraw(pos, k, kind)) < AddonRate(kind, cs[k].segment)
      ensures Addon(cs[k].id, kind, AddonPrice(kind)) in own + rest
    {
      if k == 0 {
        assert AddonDraw(pos, 0, kind) == pos + Rank(kind);
        assert Addon(cs[0].id, kind, AddonPrice(kind)) in own;
      } else {
        assert AddonDraw(next, k - 1, kind) == AddonDraw(pos, k, kind);
        assert cs[1..][k - 1] == cs[k];
        assert Addon(cs[k].id, kind, AddonPrice(kind)) in rest;
      }
    }
  }

  lemma PrependDistinct(s: Stream, pos: nat, next: nat, cs: seq<Customer>, own: seq<Addon>, rest: seq<Addon>)
    requires |cs| > 0 && next == pos + 3
    requires own == CustomerAddons(s, pos, cs[0])
    requires forall a :: a in rest ==> exists k :: Earned(a, s, next, cs[1..], k)
    requires DistinctIds(cs[1..]) ==> forall i, j :: 0 <= i < j < |rest| ==>
      rest[i].customerId != rest[j].customerId || rest[i].kind != rest[j].kind
    ensures DistinctIds(cs) ==> forall i, j :: 0 <= i < j < |own + rest| ==>
      (own + rest)[i].customerId != (own + rest)[j].customerId || (own + rest)[i].kind != (own + rest)[j].kind
  {
    if !DistinctIds(cs) {
      return;
    }
    assert DistinctIds(cs[1..]);
    var rows := own + rest;
    CustomerAddonsDistinct(s, pos, cs[0]);
    forall i, j | 0 <= i < j < |rows|
      ensures rows[i].customerId != rows[j].customerId || rows[i].kind != rows[j].kind
    {
      if j < |own| {
        assert rows[i] == own[i] && rows[j] == own[j];
      } else if i >= |own| {
        assert rows[i] == rest[i - |own|] && rows[j] == rest[j - |own|];
      } else {
        assert rows[i] == own[i] && rows[j] == rest[j - |own|];
        assert rows[j] in rest;
        var k :| Earned(rows[j], s, next, cs[1..], k);
        assert cs[1..][k] == cs[k + 1];
      }
    }
  }

  /** With distinct ids, a row of the first customer's own add-ons was
      earned by that customer only. */
  lemma EarnedByFirst(a: Addon, s: Stream, pos: nat, cs: seq<Customer>, k: int)
    requires |cs| > 0 && DistinctIds(cs)
    requires a in CustomerAddons(s, pos, cs[0])
    requires Earned(a, s, pos, cs, k)
    ensures k == 0
  {
  }

  /** With distinct ids, a row of the rest of the table earned by customer
      `k` of `cs` was earned by customer `k - 1` of the rest, whose draws
      start one customer later. */
  lemma EarnedInRest(a: Addon, s: Stream, pos: nat, next: nat, cs: seq<Customer>, rest: seq<Addon>, k: int)
    requires |cs| > 0 && next == pos + 3 && DistinctIds(cs)
    requires a in rest && (forall b :: b in rest ==> exists k :: Earned(b, s, next, cs[1..], k))
    requires Earned(a, s, pos, cs, k)
    ensures 0 < k
    ensures Earned(a, s, next, cs[1..], k - 1)
    ensures AddonDraw(next, k - 1, a.kind) == AddonDraw(pos, k, a.kind)
  {
    var k' :| Earned(a, s, next, cs[1..], k');
    assert cs[1..][k'] == cs[k' + 1];
    assert k == k' + 1;
  }

  lemma PrependOrdered(s: Stream, pos: nat, next: nat, cs: seq<Customer>, own: seq<Addon>, rest: seq<Addon>)
    requires |cs| > 0 && next == pos + 3
    requires own == CustomerAddons(s, pos, cs[0])
    requires forall a :: a in rest ==> exists k :: Earned(a, s, next, cs[1..], k)
    requires DistinctIds(cs[1..]) ==> DrawOrdered(rest, s, next, cs[1..])
    ensures DistinctIds(cs) ==> DrawOrdered(own + rest, s, pos, cs)
  {
    if !DistinctIds(cs) {
      return;
    }
    assert DistinctIds(cs[1..]);
    forall i, j, ki, kj | 0 <= i < j < |own + rest| && Earned((own + rest)[i], s, pos, cs, ki) && Earned((own + rest)[j], s, pos, cs, kj)
      ensures AddonDraw(pos, ki, (own + rest)[i].kind) < AddonDraw(pos, kj, (own + rest)[j].kind)
    {
      PrependOrderedPair(s, pos, next, cs, own, rest, i, j, ki, kj);
    }
  }

  lemma PrependOrderedPair(s: Stream, pos: nat, next: nat, cs: seq<Customer>, own: seq<Addon>, rest: seq<Addon>,
                           i: int, j: int, ki: int, kj: int)
    requires |cs| > 0 && next == pos + 3 && DistinctIds(cs)
    requires own == CustomerAddons(s, pos, cs[0])
    requires forall a :: a in rest ==> exists k :: Earned(a, s, next, cs[1..], k)
    requires DrawOrdered(rest, s, next, cs[1..])
    requires 0 <= i < j < |own + rest|
    requires Earned((own + rest)[i], s, pos, cs, ki) && Earned((own + rest)[j], s, pos, cs, kj)
    ensures AddonDraw(pos, ki, (own + rest)[i].kind) < AddonDraw(pos, kj, (own + rest)[j].kind)
  {
    var rows := own + rest;
    if j < |own| {
      assert rows[i] == own[i] && rows[j] == own[j];
      EarnedByFirst(rows[i], s, pos, cs, ki);
      EarnedByFirst(rows[j], s, pos, cs, kj);
    } else if i < |own| {
      assert rows[i] == own[i] && rows[j] == rest[j - |own|];
      EarnedByFirst(rows[i], s, pos, cs, ki);
      EarnedInRest(rows[j], s, pos, next, cs, rest, kj);
    } else {
      assert rows[i] == rest[i - |own|] && rows[j] == rest[j - |own|];
      EarnedInRest(rows[i], s, pos, next, cs, rest, ki);
      EarnedInRest(rows[j], s, pos, next, cs, rest, kj);
    }
  }
}

=== FILE: calendar.dfy ===
/** Proleptic Gregorian civil dates and minute-resolution timestamps, as
    pandas `Timestamp`, `Timedelta` and `DateOffset(months=…)` use them.
    Dates are ordered by their day ordinal (day 1 is 0001-01-01, as in
    Python's `date.toordinal`). */
module Calendar {

  datatype Date = Date(year: int, month: int, day: int)

  predicate IsLeap(y: int) {
    y % 4 == 0 && (y % 100 != 0 || y % 400 == 0)
  }

  function DaysInYear(y: int): int {
    if IsLeap(y) then 366 else 365
  }

  function DaysInMonth(y: int, m: int): int
    requires 1 <= m <= 12
  {
    if m == 2 then (if IsLeap(y) then 29 else 28)
    else if m == 4 || m == 6 || m == 9 || m == 11 then 30
    else 31
  }

  predicate Valid(d: Date) {
    1 <= d.year && 1 <= d.month <= 12 && 1 <= d.day <= DaysInMonth(d.year, d.month)
  }

  /** Days of year `y` that precede the first of month `m`. */
  function DaysBeforeMonth(y: int, m: int): int
    requires 1 <= m <= 12
  {
    var common := match m
      case 1 => 0   case 2 => 31  case 3 => 59   case 4 => 90
      case 5 => 120 case 6 => 151 case 7 => 181  case 8 => 212
      case 9 => 243 case 10 => 273 case 11 => 304 case _ => 334;
    common + (if m > 2 && IsLeap(y) then 1 else 0)
  }

  /** Days of all the years before year `y`. */
  function DaysBeforeYear(y: int): int
    requires 1 <= y
  {
    var a := y - 1;
    365 * a + a / 4 - a / 100 + a / 400
  }

  function Ordinal(d: Date): int
    requires Valid(d)
  {
    DaysBeforeYear(d.year) + DaysBeforeMonth(d.year, d.month) + d.day
  }

  /** Reaching year `y` adds one multiple of 4, of 100 or of 400 exactly when `y` is one. */
  lemma MultiplesStep(y: int)
    requires 1 <= y
    ensures y / 4 == (y - 1) / 4 + (if y % 4 == 0 then 1 else 0)
    ensures y / 100 == (y - 1) / 100 + (if y % 100 == 0 then 1 else 0)
    ensures y / 400 == (y - 1) / 400 + (if y % 400 == 0 then 1 else 0)
  {
  }

  lemma MultipleOf100IsMultipleOf4(y: int)
    requires y % 100 == 0
    ensures y % 4 == 0
  {
    var c := y / 100;
    assert y == 4 * (25 * c);
  }

  lemma MultipleOf400IsMultipleOf100(y: int)
    requires y % 400 == 0
    ensures y % 100 == 0
  {
    var q := y / 400;
    assert y == 100 * (4 * q);
  }

  lemma YearLength(y: int)
    requires 1 <= y
    ensures DaysBeforeYear(y + 1) == DaysBeforeYear(y) + DaysInYear(y)
  {
    MultiplesStep(y);
    if y % 400 == 0 { MultipleOf400IsMultipleOf100(y); }
    if y % 100 == 0 { MultipleOf100IsMultipleOf4(y); }
  }

  /** The day after `d`: one ordinal later, rolling over month and year ends. */
  function NextDay(d: Date): (r: Date)
    requires Valid(d)
    ensures Valid(r) && Ordinal(r) == Ordinal(d) + 1
  {
    if d.day < DaysInMonth(d.year, d.month) then Date(d.year, d.month, d.day + 1)
    else if d.month < 12 then Date(d.year, d.month + 1, 1)
    else YearLength(d.year); Date(d.year + 1, 1, 1)
  }

  /** `d + Timedelta(days=n)`. */
  function AddDays(d: Date, n: nat): (r: Date)
    requires Valid(d)
    ensures Valid(r) && Ordinal(r) == Ordinal(d) + n
    decreases n
  {
    if n == 0 then d else AddDays(NextDay(d), n - 1)
  }

  /** Months counted from January of year 0, so that adding calendar months is addition. */
  function MonthIndex(d: Date): int {
    12 * d.year + d.month - 1
  }

  /** The ordinal of the last day before month number `k` begins. */
  function MonthStart(k: int): int
    requires 12 <= k
  {
    DaysBeforeYear(k / 12) + DaysBeforeMonth(k / 12, k % 12 + 1)
  }

  function MonthLength(k: int): int
    requires 12 <= k
  {
    DaysInMonth(k / 12, k % 12 + 1)
  }

  lemma MonthStartStep(k: int)
    requires 12 <= k
    ensures MonthStart(k + 1) == MonthStart(k) + MonthLength(k)
  {
    if k % 12 == 11 {
      assert (k + 1) / 12 == k / 12 + 1 && (k + 1) % 12 == 0;
      YearLength(k / 12);
    } else {
      assert (k + 1) / 12 == k / 12 && (k + 1) % 12 == k % 12 + 1;
    }
  }

  lemma MonthLengthPositive(k: int)
    requires 12 <= k
    ensures 0 < MonthLength(k)
  {
  }

  lemma {:induction false} MonthStartMonotone(i: int, j: int)
    requires 12 <= i < j
    ensures MonthStart(i) + MonthLength(i) <= MonthStart(j)
    decreases j - i
  {
    MonthStartStep(i);
    if i + 1 < j {
      MonthStartMonotone(i + 1, j);
      MonthLengthPositive(i + 1);
      // Naming the terms lets the two steps chain without unfolding MonthStart.
      var next, nextLength, target := MonthStart(i + 1), MonthLength(i + 1), MonthStart(j);
      assert MonthStart(i) + MonthLength(i) == next;
      assert next + nextLength <= target && 0 < nextLength;
    }
  }

  lemma OrdinalWithinMonth(d: Date)
    requires Valid(d)
    ensures MonthStart(MonthIndex(d)) < Ordinal(d) <= MonthStart(MonthIndex(d)) + MonthLength(MonthIndex(d))
  {
    var k := MonthIndex(d);
    assert k / 12 == d.year && k % 12 + 1 == d.month;
  }

  /** A date in a later calendar month has a later ordinal, whatever the days of month. */
  lemma LaterMonthLaterOrdinal(a: Date, b: Date)
    requires Valid(a) && Valid(b)
    requires MonthIndex(a) < MonthIndex(b)
    ensures Ordinal(a) < Ordinal(b)
  {
    OrdinalWithinMonth(a);
    OrdinalWithinMonth(b);
    MonthStartMonotone(MonthIndex(a), MonthIndex(b));
  }

  /** The ordinal names one date only. */
  lemma OrdinalInjective(a: Date, b: Date)
    requires Valid(a) && Valid(b)
    ensures Ordinal(a) == Ordinal(b) ==> a == b
  {
    if MonthIndex(a) < MonthIndex(b) {
      LaterMonthLaterOrdinal(a, b);
    } else if MonthIndex(b) < MonthIndex(a) {
      LaterMonthLaterOrdinal(b, a);
    } else {
      assert a.year == b.year && a.month == b.month;
    }
  }

  function Min(a: int, b: int): int {
    if a <= b then a else b
  }

  /** `d + DateOffset(months=n)`: `n` calendar months later, with the day of
      month clamped to the last day of the target month. */
  function AddMonths(d: Date, n: nat): (r: Date)
    requires Valid(d)
    ensures Valid(r)
    ensures MonthIndex(r) == MonthIndex(d) + n
    ensures r.day <= d.day
    ensures r.day == d.day || r.day == DaysInMonth(r.year, r.month)
  {
    var k := MonthIndex(d) + n;
    var y := k / 12;
    var m := k % 12 + 1;
    Date(y, m, Min(d.day, DaysInMonth(y, m)))
  }

  /** Adding more months never yields an earlier date: strictly later for strictly more months. */
  lemma AddMonthsIncreasing(d: Date, n1: nat, n2: nat)
    requires Valid(d)
    requires n1 < n2
    ensures Ordinal(AddMonths(d, n1)) < Ordinal(AddMonths(d, n2))
  {
    LaterMonthLaterOrdinal(AddMonths(d, n1), AddMonths(d, n2));
  }

  /** Adding at least one month moves strictly forward. */
  lemma AddMonthsAdvances(d: Date, n: nat)
    requires Valid(d)
    requires 1 <= n
    ensures Ordinal(d) < Ordinal(AddMonths(d, n))
  {
    AddMonthsIncreasing(d, 0, n);
    assert AddMonths(d, 0) == d;
  }

  /** `DateOffset` clamps the day to the end of a shorter month, leap years included. */
  lemma AddMonthsExamples()
    ensures AddMonths(Date(2024, 1, 31), 1) == Date(2024, 2, 29)
    ensures AddMonths(Date(2023, 1, 31), 1) == Date(2023, 2, 28)
    ensures AddMonths(Date(2023, 11, 30), 3) == Date(2024, 2, 29)
    ensures AddMonths(Date(2024, 12, 31), 24) == Date(2026, 12, 31)
  {
  }

  /** A wall-clock timestamp with minute resolution (seconds are always zero). */
  datatype DateTime = DateTime(date: Date, hour: int, minute: int)

  predicate ValidTime(t: DateTime) {
    Valid(t.date) && 0 <= t.hour < 24 && 0 <= t.minute < 60
  }

  /** Minutes since the start of the ordinal epoch, at 1440 minutes a day:
      the instant the timestamp denotes. */
  function Minutes(t: DateTime): int
    requires ValidTime(t)
  {
    Ordinal(t.date) * 1440 + t.hour * 60 + t.minute
  }

  /** `t + Timedelta(minutes=m)`. */
  function AddMinutes(t: DateTime, m: nat): (r: DateTime)
    requires ValidTime(t)
    ensures ValidTime(r)
    ensures Minutes(r) == Minutes(t) + m
  {
    var total := t.hour * 60 + t.minute + m;
    var timeOfDay := total % 1440;
    DateTime(AddDays(t.date, total / 1440), timeOfDay / 60, timeOfDay % 60)
  }

  /** A timestamp's calendar day is recovered from its instant by whole-day division. */
  lemma DayOfMinutes(t: DateTime)
    requires ValidTime(t)
    ensures Minutes(t) / 1440 == Ordinal(t.date)
  {
  }
}

=== FILE: customers.dfy ===
/** Customer generation. generate_data.py draws each attribute for the whole
    population in one vectorised call, so the stream is consumed in six
    blocks of `n` draws: signup offsets, segments, genders, then three age
    columns (student, adult and senior ranges). All three age columns are
    drawn for every customer; `np.where` keeps the one of its segment. */
module Customers {
  import opened Calendar
  import opened Draws
  import opened Params

  datatype Customer = Customer(id: int, signupDate: Date, age: int, gender: Gender, segment: Segment)

  const CustomerDraws := 6

  predicate InHorizon(d: Date) {
    Valid(d) && Ordinal(HorizonStart) <= Ordinal(d) <= Ordinal(HorizonEnd)
  }

  predicate WellFormed(c: Customer) {
    && 1 <= c.id
    && InHorizon(c.signupDate)
    && AgeLow(c.segment) <= c.age < AgeHigh(c.segment)
  }

  /** `start_date + rng.integers(0, days + 1)` days: a day of the horizon. */
  function SignupDate(x: real): (d: Date)
    ensures InHorizon(d)
    ensures Ordinal(d) - Ordinal(HorizonStart) == IntIn(x, 0, HorizonDays())
  {
    HorizonIsTwoYears();
    AddDays(HorizonStart, IntIn(x, 0, HorizonDays()))
  }

  /** Every day of the horizon, both ends included, is a possible signup date. */
  lemma SignupDateOnto(d: Date)
    requires InHorizon(d)
    ensures exists x: real :: 0.0 <= x < 1.0 && SignupDate(x) == d
  {
    HorizonIsTwoYears();
    var k := Ordinal(d) - Ordinal(HorizonStart);
    IntInOnto(k, 0, HorizonDays());
    var x: real :| 0.0 <= x < 1.0 && IntIn(x, 0, HorizonDays()) == k;
    OrdinalInjective(SignupDate(x), d);
  }

  /** `rng.choice(segments, p=[0.22, 0.68, 0.10])` on draw `x`: the first
      22% of the unit interval is Student, the last 10% Senior. */
  function SegmentOf(x: real): (seg: Segment)
    ensures seg == Student <==> x < SegmentWeights[0]
    ensures seg == Senior <==> SegmentWeights[0] + SegmentWeights[1] <= x
  {
    assert Cumulative(SegmentWeights, 1) == SegmentWeights[0];
    assert Cumulative(SegmentWeights, 2) == SegmentWeights[0] + SegmentWeights[1];
    assert Total(SegmentWeights) == 1.0;
    Segments[Pick(x, SegmentWeights)]
  }

  /** `rng.choice(["M", "F"], p=[0.52, 0.48])` on draw `x`. */
  function GenderOf(x: real): (g: Gender)
    ensures g == M <==> x < GenderWeights[0]
  {
    assert Cumulative(GenderWeights, 1) == GenderWeights[0];
    assert Total(GenderWeights) == 1.0;
    Genders[Pick(x, GenderWeights)]
  }

  /** The age kept for a customer of segment `seg`, given its draws in the
      student, adult and senior age columns. */
  function AgeOf(seg: Segment, studentDraw: real, adultDraw: real, seniorDraw: real): (age: int)
    ensures AgeLow(seg) <= age < AgeHigh(seg)
  {
    match seg
    case Student => IntIn(studentDraw, AgeLow(Student), AgeHigh(Student))
    case Adult => IntIn(adultDraw, AgeLow(Adult), AgeHigh(Adult))
    case Senior => IntIn(seniorDraw, AgeLow(Senior), AgeHigh(Senior))
  }

  /** Stream positions of customer `i`'s draws (0-based, of `n`): its entry
      in each of the six column blocks that start at `pos`. */
  function DrawPositions(pos: nat, n: nat, i: nat): (ps: seq<nat>)
    ensures |ps| == CustomerDraws
  {
    [pos + i, pos + n + i, pos + 2 * n + i, pos + 3 * n + i, pos + 4 * n + i, pos + 5 * n + i]
  }

  /** Customer `i` (0-based) of `n`, drawn from its own six positions. */
  function CustomerAt(s: Stream, pos: nat, n: nat, i: nat): (c: Customer)
    requires i < n
    ensures WellFormed(c) && c.id == i + 1
    ensures Ordinal(c.signupDate) == Ordinal(HorizonStart) + IntIn(s(pos + i), 0, HorizonDays())
    ensures c.segment == SegmentOf(s(pos + n + i))
    ensures c.gender == GenderOf(s(pos + 2 * n + i))
    ensures c.age == AgeOf(c.segment, s(pos + 3 * n + i), s(pos + 4 * n + i), s(pos + 5 * n + i))
  {
    var ps := DrawPositions(pos, n, i);
    var segment := SegmentOf(s(ps[1]));
    Customer(i + 1, SignupDate(s(ps[0])), AgeOf(segment, s(ps[3]), s(ps[4]), s(ps[5])), GenderOf(s(ps[2])), segment)
  }

  /** The customer table of `n` customers, read from the stream at `pos`; returns the next position. */
  function GenerateCustomers(s: Stream, pos: nat, n: nat): (r: (seq<Customer>, nat))
    ensures |r.0| == n
    ensures forall i :: 0 <= i < n ==> r.0[i].id == i + 1 && WellFormed(r.0[i])
    ensures forall i {:trigger CustomerAt(s, pos, n, i)} :: 0 <= i < n ==> r.0[i] == CustomerAt(s, pos, n, i)
    ensures r.1 == pos + CustomerDraws * n
  {
    (seq(n, i requires 0 <= i < n => CustomerAt(s, pos, n, i)), pos + CustomerDraws * n)
  }

  /** Customers are drawn independently: customer `i` depends only on its own
      six draws, so two streams that agree there give it the same attributes. */
  lemma CustomerDependsOnOwnDraws(s: Stream, t: Stream, pos: nat, n: nat, i: nat)
    requires i < n
    requires forall p :: p in DrawPositions(pos, n, i) ==> s(p) == t(p)
    ensures GenerateCustomers(s, pos, n).0[i] == GenerateCustomers(t, pos, n).0[i]
  {
    var ps := DrawPositions(pos, n, i);
    assert forall k :: 0 <= k < CustomerDraws ==> s(ps[k]) == t(ps[k]);
    assert CustomerAt(s, pos, n, i) == CustomerAt(t, pos, n, i);
  }
}

=== FILE: draws.dfy ===
/** The generator's single pseudo-random source, seen from outside: an
    infinite stream of draws consumed left to right, one value per element
    sampled by `rng.random`, `rng.integers`, `rng.choice` or `rng.normal`: a
    call with `size=n` reads n values. A uniform sampler reads its value as a
    number in [0, 1); a normal sampler reads it as the sample itself. Every sampler below is total over ALL reals, so each
    invariant of the simulation holds for every stream, not only for the
    streams numpy can produce. */
module Draws {

  type Stream = nat -> real

  /** `rng.integers(lo, hi)`: the inverse CDF of the uniform law on
      {lo, …, hi - 1}; draws outside [0, 1) wrap around into the range. */
  function IntIn(x: real, lo: int, hi: int): (r: int)
    requires lo < hi
    ensures lo <= r < hi
  {
    lo + Wrap((x * (hi - lo) as real).Floor, hi - lo)
  }

  /** `f` reduced into [0, m); values already there are kept. */
  function Wrap(f: int, m: int): (r: int)
    requires 0 < m
    ensures 0 <= r < m
    ensures 0 <= f < m ==> r == f
  {
    f % m
  }

  /** On a unit draw, `IntIn` picks the bucket of width 1/(hi - lo) holding `x`. */
  lemma IntInBucket(x: real, lo: int, hi: int)
    requires lo < hi
    requires 0.0 <= x < 1.0
    ensures ((IntIn(x, lo, hi) - lo) as real) <= x * (hi - lo) as real < ((IntIn(x, lo, hi) - lo + 1) as real)
  {
    var n := (hi - lo) as real;
    var t := x * n;
    ScaleUnit(x, n);
    var f := t.Floor;
    assert f as real <= t < f as real + 1.0;
    assert 0 <= f < hi - lo;
  }

  /** Every value of the range is drawn by some unit draw. */
  lemma IntInOnto(k: int, lo: int, hi: int)
    requires lo <= k < hi
    ensures exists x: real :: 0.0 <= x < 1.0 && IntIn(x, lo, hi) == k
  {
    var n := (hi - lo) as real;
    var x := (k - lo) as real / n;
    UnitQuotient((k - lo) as real, n);
    assert (x * n).Floor == k - lo;
    assert IntIn(x, lo, hi) == k;
  }

  lemma ScaleUnit(x: real, n: real)
    requires 0.0 <= x < 1.0 && 0.0 < n
    ensures 0.0 <= x * n < n
  {
  }

  /** Sum of the first `i` weights. */
  function Cumulative(w: seq<real>, i: nat): real
    requires i <= |w|
  {
    if i == 0 then 0.0 else Cumulative(w, i - 1) + w[i - 1]
  }

  function Total(w: seq<real>): real {
    Cumulative(w, |w|)
  }

  predicate NonNegative(w: seq<real>) {
    forall i :: 0 <= i < |w| ==> 0.0 <= w[i]
  }

  /** Walks the cumulative weights from index `i`: the first index whose
      cumulative weight exceeds `t`, or the last index. */
  function PickFrom(t: real, w: seq<real>, i: nat): (r: nat)
    requires i < |w|
    requires forall j :: 0 < j <= i ==> Cumulative(w, j) <= t
    ensures i <= r < |w|
    ensures forall j :: 0 < j <= r ==> Cumulative(w, j) <= t
    ensures r + 1 < |w| ==> t < Cumulative(w, r + 1)
    decreases |w| - i
  {
    if i + 1 == |w| || t < Cumulative(w, i + 1) then i else PickFrom(t, w, i + 1)
  }

  /** `rng.choice(len(w), p=w / w.sum())` on draw `u`: numpy searches the
      normalised cumulative weights for `u` (`searchsorted(…, side='right')`),
      i.e. it returns how many cumulative weights lie at or below `u`. The
      comparison is made against `u * Total(w)` so no division is needed. A
      draw at or past the top (impossible for a unit draw) takes the last index. */
  function Pick(u: real, w: seq<real>): (i: nat)
    requires |w| > 0
    ensures i < |w|
    ensures forall j :: 0 < j <= i ==> Cumulative(w, j) <= u * Total(w)
    ensures i + 1 < |w| ==> u * Total(w) < Cumulative(w, i + 1)
  {
    PickFrom(u * Total(w), w, 0)
  }

  lemma {:induction false} CumulativeMonotone(w: seq<real>, i: nat, j: nat)
    requires NonNegative(w)
    requires i <= j <= |w|
    ensures Cumulative(w, i) <= Cumulative(w, j)
    decreases j - i
  {
    if i < j {
      CumulativeMonotone(w, i, j - 1);
    }
  }

  /** With non-negative weights `Pick` is exactly the inverse CDF: it returns
      the index whose cumulative slice holds `u * Total(w)`. */
  lemma PickIsBucket(u: real, w: seq<real>, i: nat)
    requires |w| > 0 && NonNegative(w)
    requires i < |w|
    requires Cumulative(w, i) <= u * Total(w) < Cumulative(w, i + 1)
    ensures Pick(u, w) == i
  {
    var r := Pick(u, w);
    if r < i {
      CumulativeMonotone(w, r + 1, i);
    }
  }

  /** `n` equal weights, as `np.array([1]*n, dtype=float)` in generate_data.py. */
  function Uniform(n: nat): (w: seq<real>)
    ensures |w| == n && NonNegative(w)
  {
    seq(n, _ => 1.0)
  }

  lemma {:induction false} CumulativeUniform(n: nat, i: nat)
    requires i <= n
    ensures Cumulative(Uniform(n), i) == i as real
  {
    if i > 0 {
      CumulativeUniform(n, i - 1);
    }
  }

  /** With equal weights every index is drawn, by a unit draw in the middle of its slice. */
  lemma PickUniformOnto(n: nat, i: nat)
    requires i < n
    ensures exists u: real :: 0.0 <= u < 1.0 && Pick(u, Uniform(n)) == i
  {
    var u := (i as real + 0.5) / n as real;
    UnitQuotient(i as real + 0.5, n as real);
    CumulativeUniform(n, n);
    CumulativeUniform(n, i);
    CumulativeUniform(n, i + 1);
    PickIsBucket(u, Uniform(n), i);
  }

  lemma UnitQuotient(a: real, b: real)
    requires 0.0 <= a < b
    ensures 0.0 <= a / b < 1.0 && (a / b) * b == a
  {
  }

  /** `np.clip(x, lo, hi)`: the point of [lo, hi] nearest to `x`. */
  function Clip(x: real, lo: real, hi: real): (r: real)
    requires lo <= hi
    ensures lo <= r <= hi
    ensures lo <= x <= hi ==> r == x
    ensures x < lo ==> r == lo
    ensures hi < x ==> r == hi
  {
    if x < lo then lo else if x > hi then hi else x
  }

  /** Python's `int()` on a float: truncation toward zero. */
  function Truncate(x: real): (r: int)
    ensures 0.0 <= x ==> r as real <= x < r as real + 1.0
    ensures x < 0.0 ==> r as real - 1.0 < x <= r as real
  {
    if 0.0 <= x then x.Floor else -((-x).Floor)
  }
}

=== FILE: generator.dfy ===
/** The whole generation run: customers, then plan choices, then survival
    loops, then add-ons, then visits, all reading one draw stream in that
    order from its first value. */
module Generator {
  import opened Calendar
  import opened Draws
  import opened Params
  import opened Customers
  import opened Subscriptions
  import opened Addons
  import opened Visits

  datatype Dataset = Dataset(
    customers: seq<Customer>,
    plans: seq<Plan>,
    subscriptions: seq<Subscription>,
    addons: seq<Addon>,
    visits: seq<Visit>,
    fixedCosts: seq<FixedCost>)

  /** Every foreign key resolves: subscriptions, add-ons and visits name
      customers of the table, and subscriptions name catalogue plans. */
  predicate ReferentiallyIntact(ds: Dataset) {
    && (forall i :: 0 <= i < |ds.subscriptions| ==>
          1 <= ds.subscriptions[i].customerId <= |ds.customers| && IsPlanId(ds.subscriptions[i].planId))
    && (forall a :: a in ds.addons ==> 1 <= a.customerId <= |ds.customers|)
    && (forall v :: v in ds.visits ==> 1 <= v.customerId <= |ds.customers|)
  }

  /** Where the add-on draws of a run with customer table `cs` start: after
      the six customer draws and the plan draw of each customer, and after
      every customer's survival loop. */
  function AddonStart(s: Stream, cs: seq<Customer>): nat {
    var n := |cs|;
    LoopStart(s, 7 * n, ChoosePlans(s, 6 * n, cs), n)
  }

  /** The customer table, the plan choices and the subscription table,
      with the stream position after them: six customer draws, then one
      plan draw per customer, then one survival loop per customer. */
  method Enrol(s: Stream, n: nat) returns (customers: seq<Customer>, pids: seq<int>, subs: seq<Subscription>, next: nat)
    ensures |customers| == n && |pids| == n && |subs| == n
    ensures forall i {:trigger CustomerAt(s, 0, n, i)} :: 0 <= i < n ==> customers[i] == CustomerAt(s, 0, n, i)
    ensures pids == ChoosePlans(s, 6 * n, customers) && AllPlans(pids)
    ensures forall i :: 0 <= i < n ==>
      && customers[i].id == i + 1
      && WellFormed(customers[i])
      && Simulated(subs[i], i + 1, customers[i], pids[i])
    ensures AllChurned(subs, s, 7 * n, pids)
    ensures next == AddonStart(s, customers)
  {
    var p1;
    customers, p1 := GenerateCustomers(s, 0, n).0, GenerateCustomers(s, 0, n).1;
    pids := ChoosePlans(s, p1, customers);
    assert p1 + n == 7 * n;
    var r := SimulateSubscriptions(s, 7 * n, customers, pids, 1);
    subs, next := r.0, r.1;
  }

  /** The add-on table of customers numbered 1..n, three draws per customer
      from `pos` on: every row was earned by its own draw, customer `i`
      holds add-on `kind` exactly when that draw passed, no (customer, kind)
      pair appears twice, and rows are sorted by customer id, then in the
      order drinks, sauna, personal training. */
  method AddonTable(s: Stream, pos: nat, customers: seq<Customer>) returns (rows: seq<Addon>, next: nat)
    requires forall i :: 0 <= i < |customers| ==> customers[i].id == i + 1
    ensures next == pos + 3 * |customers|
    ensures forall a :: a in rows ==> exists k :: Earned(a, s, pos, customers, k)
    ensures forall a :: a in rows ==> 1 <= a.customerId <= |customers|
    ensures forall i, kind :: 0 <= i < |customers| ==>
      (Addon(i + 1, kind, AddonPrice(kind)) in rows <==>
         s(AddonDraw(pos, i, kind)) < AddonRate(kind, customers[i].segment))
    ensures forall i, j :: 0 <= i < j < |rows| ==>
      rows[i].customerId != rows[j].customerId || rows[i].kind != rows[j].kind
    ensures forall i, j :: 0 <= i < j < |rows| ==>
      || rows[i].customerId < rows[j].customerId
      || (rows[i].customerId == rows[j].customerId && Rank(rows[i].kind) < Rank(rows[j].kind))
  {
    var r := AllAddons(s, pos, customers);
    rows, next := r.0, r.1;
    GeneratedAddons(s, pos, customers, rows);
  }

  /** The visit table of subscriptions numbered after their customers
      1..n, walked from draw `pos` on, with its per-subscription groups: ids
      run from 1, every visit lies in its customer's subscription window, no
      customer visits twice on one day, and each group is decided by the
      draws of its own walk. */
  method VisitTable(s: Stream, pos: nat, subs: seq<Subscription>) returns (visits: seq<Visit>, groups: seq<seq<Visit>>, next: nat)
    requires forall i :: 0 <= i < |subs| ==> subs[i].customerId == i + 1 && Consistent(subs[i])
    ensures forall k :: 0 <= k < |visits| ==>
      && visits[k].id == k + 1
      && 1 <= visits[k].customerId <= |subs|
      && BelongsTo(visits[k], subs[visits[k].customerId - 1])
    ensures OneVisitPerDay(visits)
    ensures |groups| == |subs| && visits == Flatten(groups) && GroupsDecided(groups, s, pos, subs)
    ensures forall i :: 0 <= i < |subs| ==> Chronological(groups[i])
    ensures forall i, k :: 0 <= i < |subs| && 0 <= k < |groups[i]| ==> BelongsTo(groups[i][k], subs[i])
    ensures next == pos + TotalWindow(subs) + 3 * |visits|
  {
    var r := AllVisits(s, pos, subs, 1);
    groups, next := r.0, r.1;
    GeneratedVisitsOwned(subs, groups);
    visits := Flatten(groups);
  }

  /** The six tables generated for `n` customers from draw stream `s`. The
      survival loops read from draw `7n`, after the six customer blocks and
      the plan choices; the add-on draws start where the last survival loop
      stopped; the visit walks start three draws per customer later. */
  method Generate(s: Stream, n: nat) returns (ds: Dataset, walks: seq<seq<Visit>>, visitStart: nat)
    ensures |ds.customers| == n && |ds.subscriptions| == n
    ensures ds.plans == Plans && ds.fixedCosts == FixedCosts
    ensures forall i :: 0 <= i < n ==>
      && ds.customers[i].id == i + 1
      && WellFormed(ds.customers[i])
      && Simulated(ds.subscriptions[i], i + 1, ds.customers[i], ds.subscriptions[i].planId)
    ensures forall i :: 0 <= i < n ==> Consistent(ds.subscriptions[i])
    ensures forall i :: 0 <= i < n ==> ds.subscriptions[i].planId == ChoosePlans(s, 6 * n, ds.customers)[i]
    ensures AllChurned(ds.subscriptions, s, 7 * n, ChoosePlans(s, 6 * n, ds.customers))
    ensures ReferentiallyIntact(ds)
    ensures forall k :: 0 <= k < |ds.visits| ==>
      && ds.visits[k].id == k + 1
      && 1 <= ds.visits[k].customerId <= n
      && BelongsTo(ds.visits[k], ds.subscriptions[ds.visits[k].customerId - 1])
    ensures OneVisitPerDay(ds.visits)
    ensures var addonStart := AddonStart(s, ds.customers);
      forall i, kind :: 0 <= i < n ==>
        (Addon(i + 1, kind, AddonPrice(kind)) in ds.addons <==>
           s(AddonDraw(addonStart, i, kind)) < AddonRate(kind, ds.customers[i].segment))
    ensures |walks| == n && ds.visits == Flatten(walks)
    ensures visitStart == AddonStart(s, ds.customers) + 3 * n
    ensures GroupsDecided(walks, s, visitStart, ds.subscriptions)
    ensures forall i :: 0 <= i < n ==> Chronological(walks[i])
    ensures forall i, k :: 0 <= i < n && 0 <= k < |walks[i]| ==> BelongsTo(walks[i][k], ds.subscriptions[i])
    ensures forall i, j :: 0 <= i < j < |ds.addons| ==>
      ds.addons[i].customerId != ds.addons[j].customerId || ds.addons[i].kind != ds.addons[j].kind
    ensures forall i, j :: 0 <= i < j < |ds.addons| ==>
      || ds.addons[i].customerId < ds.addons[j].customerId
      || (ds.addons[i].customerId == ds.addons[j].customerId && Rank(ds.addons[i].kind) < Rank(ds.addons[j].kind))
    ensures forall a :: a in ds.addons ==> exists k :: Earned(a, s, AddonStart(s, ds.customers), ds.customers, k)
    ensures forall i {:trigger CustomerAt(s, 0, n, i)} :: 0 <= i < n ==> ds.customers[i] == CustomerAt(s, 0, n, i)
  {
    var customers, pids, subs, addonStart := Enrol(s, n);
    assert forall i :: 0 <= i < |subs| ==> Consistent(subs[i]);
    var addons;
    addons, visitStart := AddonTable(s, addonStart, customers);
    var visits, visitEnd;
    visits, walks, visitEnd := VisitTable(s, visitStart, subs);
    ds := Dataset(customers, Plans, subs, addons, visits, FixedCosts);
  }

  /** The add-on table of customers numbered 1..n, read from `pos`: every
      row names a customer of the table; customer `i` holds add-on `kind`
      exactly when its own draw for that kind passed; and, the ids being
      distinct, no (customer, kind) pair appears twice. */
  lemma GeneratedAddons(s: Stream, pos: nat, customers: seq<Customer>, rows: seq<Addon>)
    requires forall i :: 0 <= i < |customers| ==> customers[i].id == i + 1
    requires forall a :: a in rows ==> exists k :: Earned(a, s, pos, customers, k)
    requires forall k, kind :: 0 <= k < |customers| && s(AddonDraw(pos, k, kind)) < AddonRate(kind, customers[k].segment) ==>
      Addon(customers[k].id, kind, AddonPrice(kind)) in rows
    requires DistinctIds(customers) ==> forall i, j :: 0 <= i < j < |rows| ==>
      rows[i].customerId != rows[j].customerId || rows[i].kind != rows[j].kind
    requires DistinctIds(customers) ==> DrawOrdered(rows, s, pos, customers)
    ensures forall a :: a in rows ==> 1 <= a.customerId <= |customers|
    ensures forall i, kind :: 0 <= i < |customers| ==>
      (Addon(i + 1, kind, AddonPrice(kind)) in rows <==>
         s(AddonDraw(pos, i, kind)) < AddonRate(kind, customers[i].segment))
    ensures forall i, j :: 0 <= i < j < |rows| ==>
      rows[i].customerId != rows[j].customerId || rows[i].kind != rows[j].kind
    ensures forall i, j :: 0 <= i < j < |rows| ==>
      || rows[i].customerId < rows[j].customerId
      || (rows[i].customerId == rows[j].customerId && Rank(rows[i].kind) < Rank(rows[j].kind))
  {
    assert DistinctIds(customers);
    forall a | a in rows
      ensures 1 <= a.customerId <= |customers|
    {
      var k :| Earned(a, s, pos, customers, k);
    }
    forall i, kind | 0 <= i < |customers| && Addon(i + 1, kind, AddonPrice(kind)) in rows
      ensures s(AddonDraw(pos, i, kind)) < AddonRate(kind, customers[i].segment)
    {
      var k :| Earned(Addon(i + 1, kind, AddonPrice(kind)), s, pos, customers, k);
      assert k == i;
    }
    forall i, j | 0 <= i < j < |rows|
      ensures || rows[i].customerId < rows[j].customerId
              || (rows[i].customerId == rows[j].customerId && Rank(rows[i].kind) < Rank(rows[j].kind))
    {
      assert rows[i] in rows && rows[j] in rows;
      var ki :| Earned(rows[i], s, pos, customers, ki);
      var kj :| Earned(rows[j], s, pos, customers, kj);
      assert AddonDraw(pos, ki, rows[i].kind) < AddonDraw(pos, kj, rows[j].kind);
    }
  }

  /** The flattened visit table of subscriptions numbered after their
      customers 1..n: each visit names its own subscription's customer, and
      no customer visits twice on one day. */
  lemma GeneratedVisitsOwned(subs: seq<Subscription>, groups: seq<seq<Visit>>)
    requires |subs| == |groups|
    requires forall i :: 0 <= i < |subs| ==> subs[i].customerId == i + 1 && Consistent(subs[i])
    requires forall i, k :: 0 <= i < |subs| && 0 <= k < |groups[i]| ==> BelongsTo(groups[i][k], subs[i])
    requires forall i :: 0 <= i < |subs| ==> Chronological(groups[i])
    ensures forall k :: 0 <= k < |Flatten(groups)| ==>
      && 1 <= Flatten(groups)[k].customerId <= |subs|
      && BelongsTo(Flatten(groups)[k], subs[Flatten(groups)[k].customerId - 1])
    ensures forall v :: v in Flatten(groups) ==> 1 <= v.customerId <= |subs|
    ensures OneVisitPerDay(Flatten(groups))
  {
    FlattenOwned(subs, groups);
    DistinctOwners(subs, groups);
  }

  lemma FlattenOwned(subs: seq<Subscription>, groups: seq<seq<Visit>>)
    requires |subs| == |groups|
    requires forall i :: 0 <= i < |subs| ==> subs[i].customerId == i + 1
    requires forall i, k :: 0 <= i < |subs| && 0 <= k < |groups[i]| ==> BelongsTo(groups[i][k], subs[i])
    ensures forall k :: 0 <= k < |Flatten(groups)| ==>
      && 1 <= Flatten(groups)[k].customerId <= |subs|
      && BelongsTo(Flatten(groups)[k], subs[Flatten(groups)[k].customerId - 1])
    ensures forall v :: v in Flatten(groups) ==> 1 <= v.customerId <= |subs|
  {
    forall k | 0 <= k < |Flatten(groups)|
      ensures && 1 <= Flatten(groups)[k].customerId <= |subs|
              && BelongsTo(Flatten(groups)[k], subs[Flatten(groups)[k].customerId - 1])
    {
      FlattenOwnedAt(subs, groups, k);
    }
    forall v | v in Flatten(groups)
      ensures 1 <= v.customerId <= |subs|
    {
      var k :| 0 <= k < |Flatten(groups)| && Flatten(groups)[k] == v;
      FlattenOwnedAt(subs, groups, k);
    }
  }

  lemma FlattenOwnedAt(subs: seq<Subscription>, groups: seq<seq<Visit>>, k: nat)
    requires |subs| == |groups|
    requires forall i :: 0 <= i < |subs| ==> subs[i].customerId == i + 1
    requires forall i, k :: 0 <= i < |subs| && 0 <= k < |groups[i]| ==> BelongsTo(groups[i][k], subs[i])
    requires k < |Flatten(groups)|
    ensures 1 <= Flatten(groups)[k].customerId <= |subs|
    ensures BelongsTo(Flatten(groups)[k], subs[Flatten(groups)[k].customerId - 1])
  {
    var i, j := FlattenMember(groups, k);
    var v := Flatten(groups)[k];
    assert v == groups[i][j] && BelongsTo(v, subs[i]);
    assert v.customerId - 1 == i;
  }

  lemma DistinctOwners(subs: seq<Subscription>, groups: seq<seq<Visit>>)
    requires |subs| == |groups|
    requires forall i :: 0 <= i < |subs| ==> subs[i].customerId == i + 1
    requires forall i, k :: 0 <= i < |subs| && 0 <= k < |groups[i]| ==> BelongsTo(groups[i][k], subs[i])
    requires forall i :: 0 <= i < |subs| ==> Chronological(groups[i])
    ensures OneVisitPerDay(Flatten(groups))
  {
    var owners := seq(|subs|, i requires 0 <= i < |subs| => i + 1);
    assert forall i, k :: 0 <= i < |groups| && 0 <= k < |groups[i]| ==> groups[i][k].customerId == owners[i];
    FlattenOneVisitPerDay(groups, owners);
  }
}

=== FILE: optional.dfy ===
/** A value that may be absent: Python's `None` in generate_data.py. */
module Optional {
  datatype Option<+T> = None | Some(value: T)
}

=== FILE: params.dfy ===
/** The generator's static parameter set: observation horizon, population
    size, plan and fixed-cost catalogues, and the probability tables the
    samplers read. Everything here is read-only lookup data. */
module Params {
  import opened Calendar

  /** First and last day of the observation horizon. */
  const HorizonStart := Date(2023, 1, 1)
  const HorizonEnd := Date(2024, 12, 31)

  const NCustomers := 2500

  /** Days in the horizon, both ends included: `(end_date - start_date).days + 1`. */
  function HorizonDays(): int {
    Ordinal(HorizonEnd) - Ordinal(HorizonStart) + 1
  }

  /** The horizon spans 2023 and the leap year 2024; its first day has the
      ordinal Python's `date.toordinal` gives 2023-01-01. */
  lemma HorizonIsTwoYears()
    ensures Valid(HorizonStart) && Valid(HorizonEnd)
    ensures Ordinal(HorizonStart) == 738521
    ensures HorizonDays() == 731
  {
  }

  datatype Access = Full | OffPeak

  datatype Plan = Plan(id: int, name: string, monthlyPrice: int, access: Access)

  const Plans: seq<Plan> := [
    Plan(1, "Basic", 2000, Full),
    Plan(2, "Premium", 4500, Full),
    Plan(3, "Off-Peak", 1000, OffPeak),
    Plan(4, "Student", 1200, Full)
  ]

  datatype FixedCost = FixedCost(costType: string, monthlyCost: int)

  const FixedCosts: seq<FixedCost> := [
    FixedCost("rent", 300000),
    FixedCost("staff", 450000),
    FixedCost("utilities", 80000),
    FixedCost("marketing", 70000)
  ]

  /** The catalogue lists its plans in id order, ids 1 to 4. */
  predicate IsPlanId(pid: int) {
    1 <= pid <= |Plans|
  }

  function PlanById(pid: int): (p: Plan)
    requires IsPlanId(pid)
    ensures p in Plans && p.id == pid
  {
    Plans[pid - 1]
  }

  datatype Segment = Student | Adult | Senior
  datatype Gender = M | F

  const Segments: seq<Segment> := [Student, Adult, Senior]
  const SegmentWeights: seq<real> := [0.22, 0.68, 0.10]

  const Genders: seq<Gender> := [M, F]
  const GenderWeights: seq<real> := [0.52, 0.48]

  /** Half-open age range `[AgeLow, AgeHigh)` of each segment. */
  function AgeLow(seg: Segment): int {
    match seg
    case Student => 18
    case Adult => 26
    case Senior => 56
  }

  function AgeHigh(seg: Segment): int {
    match seg
    case Student => 26
    case Adult => 56
    case Senior => 71
  }

  /** Plan preference of a segment, one weight per catalogue entry, in catalogue order. */
  function PlanWeights(seg: Segment): seq<real> {
    match seg
    case Student => [0.25, 0.15, 0.10, 0.50]
    case Adult => [0.55, 0.30, 0.12, 0.03]
    case Senior => [0.55, 0.15, 0.25, 0.05]
  }

  /** Monthly churn hazard of each plan. */
  function ChurnHazard(pid: int): real
    requires IsPlanId(pid)
  {
    map[1 := 0.045, 2 := 0.030, 3 := 0.060, 4 := 0.070][pid]
  }

  /** Survival is capped at this many months. */
  const MaxMonths := 24

  datatype AddonKind = Drinks | Sauna | PersonalTraining

  function AddonPrice(kind: AddonKind): int {
    match kind
    case Drinks => 400
    case Sauna => 1000
    case PersonalTraining => 8000
  }

  /** Adoption probability of each add-on for a segment. */
  function AddonRate(kind: AddonKind, seg: Segment): real {
    match kind
    case Drinks => if seg == Student then 0.35 else 0.28
    case Sauna => if seg == Adult then 0.25 else 0.18
    case PersonalTraining => 0.08
  }

  /** Probability of a visit on any one day of a subscription. */
  const VisitRate := 0.35

  /** Candidate check-in hours of an access tier, drawn with equal weight. */
  function CheckinHours(access: Access): seq<int> {
    match access
    case OffPeak => [7, 8, 9, 10, 11, 12, 13, 14, 15, 16]
    case Full => [6, 7, 8, 9, 10, 11, 12, 13, 14, 15, 16, 17, 18, 19, 20, 21]
  }

  /** Visit durations, in minutes, are clipped to this range. */
  const MinDuration := 30
  const MaxDuration := 150
}

=== FILE: subscriptions.dfy ===
/** Subscription simulation: one subscription per customer, a plan drawn by
    segment, a discrete monthly survival process capped at `MaxMonths`, and
    right-censoring at the end of the horizon. Plan choices for the whole
    population are drawn first (one draw per customer, in customer order);
    the survival loops follow, customer by customer. */
module Subscriptions {
  import opened Calendar
  import opened Draws
  import opened Params
  import opened Optional
  import opened Customers

  datatype Status = Active | Canceled

  datatype Subscription = Subscription(
    id: int,
    customerId: int,
    planId: int,
    startDate: Date,
    endDate: Option<Date>,
    status: Status)

  /** Status and end date agree: open subscriptions have no end date, and a
      cancelled one ends after it starts and no later than the horizon. */
  predicate Consistent(sub: Subscription) {
    && Valid(sub.startDate)
    && IsPlanId(sub.planId)
    && (sub.status == Active <==> sub.endDate.None?)
    && (sub.endDate.Some? ==>
          && Valid(sub.endDate.value)
          && Ordinal(sub.startDate) < Ordinal(sub.endDate.value) <= Ordinal(HorizonEnd))
  }

  /** The end date and status a lifetime of `months` months implies: the
      calendar date `months` months after the start, unless that lies past
      the horizon, in which case the churn is unobserved. */
  predicate CensoredLifetime(sub: Subscription, months: nat) {
    && Valid(sub.startDate)
    && 1 <= months <= MaxMonths
    && var end := AddMonths(sub.startDate, months);
       if Ordinal(end) > Ordinal(HorizonEnd) then sub.status == Active && sub.endDate == None
       else sub.status == Canceled && sub.endDate == Some(end)
  }

  /** `rng.choice(plan_ids, p=plan_probs[seg] / plan_probs[seg].sum())`. */
  function ChoosePlan(x: real, seg: Segment): (pid: int)
    ensures IsPlanId(pid)
  {
    Plans[Pick(x, PlanWeights(seg))].id
  }

  /** The plan choices of all customers, one draw each from `pos` on. */
  function ChoosePlans(s: Stream, pos: nat, cs: seq<Customer>): (pids: seq<int>)
    ensures |pids| == |cs|
    ensures forall i :: 0 <= i < |cs| ==> IsPlanId(pids[i])
  {
    seq(|cs|, i requires 0 <= i < |cs| => ChoosePlan(s(pos + i), cs[i].segment))
  }

  /** Customer `i`'s plan is the one picked by draw `pos + i`. */
  lemma ChoosePlansAt(s: Stream, pos: nat, cs: seq<Customer>, pids: seq<int>, i: nat)
    requires i < |cs|
    requires pids == ChoosePlans(s, pos, cs)
    ensures pids[i] == ChoosePlan(s(pos + i), cs[i].segment)
  {
  }

  /** Every draw at positions `lo` to `hi - 1` exceeds the hazard: a month survived per draw. */
  predicate Survived(s: Stream, lo: nat, hi: int, hazard: real) {
    forall p: nat :: lo <= p < hi ==> s(p) > hazard
  }

  /** The survival loop from month `months` on, reading draws from `pos`:
      it stops at the first draw at or below `hazard`, or once the cap is
      reached. The draw is taken before the cap is tested, so the loop reads
      one draw per month it counts, the capped month included. Returns the
      months alive and the next stream position. */
  function Survive(s: Stream, pos: nat, hazard: real, months: nat): (r: (nat, nat))
    requires 1 <= months <= MaxMonths
    ensures months <= r.0 <= MaxMonths
    ensures r.1 == pos + (r.0 - months) + 1
    ensures r.0 < MaxMonths ==> s(r.1 - 1) <= hazard
    decreases MaxMonths - months
  {
    if s(pos) > hazard && months < MaxMonths then Survive(s, pos + 1, hazard, months + 1)
    else (months, pos + 1)
  }

  /** Every draw the loop read before its last one exceeded the hazard. */
  lemma {:induction false} SurviveSurvived(s: Stream, pos: nat, hazard: real, months: nat)
    requires 1 <= months <= MaxMonths
    ensures Survived(s, pos, Survive(s, pos, hazard, months).1 - 1, hazard)
    decreases MaxMonths - months
  {
    if s(pos) > hazard && months < MaxMonths {
      SurviveSurvived(s, pos + 1, hazard, months + 1);
    }
  }

  /** `months_alive`, counted from 1. */
  function MonthsAlive(s: Stream, pos: nat, hazard: real): (r: (nat, nat))
    ensures 1 <= r.0 <= MaxMonths
    ensures r.1 == pos + r.0
    ensures r.0 < MaxMonths ==> s(pos + r.0 - 1) <= hazard
  {
    Survive(s, pos, hazard, 1)
  }

  /** The loop's count is one the draws allow: the months before the last
      all survived, and the last draw stopped the loop unless the cap did. */
  lemma MonthsAliveSurvived(s: Stream, pos: nat, hazard: real)
    ensures Survived(s, pos, pos + MonthsAlive(s, pos, hazard).0 - 1, hazard)
  {
    SurviveSurvived(s, pos, hazard, 1);
  }

  /** The survival count is the one the draws determine: any month count in
      range whose preceding draws all exceed the hazard and whose own draw
      stops the loop (or that reaches the cap) is the one the loop returns. */
  lemma MonthsAliveUnique(s: Stream, pos: nat, hazard: real, m: nat)
    requires 1 <= m <= MaxMonths
    requires Survived(s, pos, pos + m - 1, hazard)
    requires m < MaxMonths ==> s(pos + m - 1) <= hazard
    ensures MonthsAlive(s, pos, hazard).0 == m
  {
    MonthsAliveSurvived(s, pos, hazard);
  }

  /** A plan with a lower hazard keeps a customer at least as long on the same draws. */
  lemma {:induction false} SurviveAntitoneInHazard(s: Stream, pos: nat, low: real, high: real, months: nat)
    requires low <= high
    requires 1 <= months <= MaxMonths
    ensures Survive(s, pos, high, months).0 <= Survive(s, pos, low, months).0
    decreases MaxMonths - months
  {
    if s(pos) > high && months < MaxMonths {
      SurviveAntitoneInHazard(s, pos + 1, low, high, months + 1);
      assert Survive(s, pos, low, months) == Survive(s, pos + 1, low, months + 1);
    } else {
      assert Survive(s, pos, high, months).0 == months;
    }
  }

  /** End date and status of a subscription that started on `start` and lived `months` months. */
  function Censor(start: Date, months: nat): (r: (Option<Date>, Status))
    requires Valid(start)
    requires 1 <= months
    ensures r.1 == Active <==> r.0.None?
    ensures r.0.Some? ==> Valid(r.0.value) && Ordinal(start) < Ordinal(r.0.value) <= Ordinal(HorizonEnd)
    ensures r.0.None? <==> Ordinal(AddMonths(start, months)) > Ordinal(HorizonEnd)
    ensures r.0.Some? ==> r.0.value == AddMonths(start, months)
  {
    var end := AddMonths(start, months);
    if Ordinal(end) > Ordinal(HorizonEnd) then (None, Active)
    else AddMonthsAdvances(start, months); (Some(end), Canceled)
  }

  /** `sub`'s end date and status are those of the survival loop run on
      its own plan's hazard with draws from `pos` on. The month count is
      bound by a quantifier so that proofs evaluate the loop only where they
      name it; `ChurnedMeaning` gives the direct reading. */
  predicate Churned(sub: Subscription, s: Stream, pos: nat) {
    && IsPlanId(sub.planId)
    && forall months: nat :: months == MonthsAlive(s, pos, ChurnHazard(sub.planId)).0 ==> CensoredLifetime(sub, months)
  }

  lemma ChurnedMeaning(sub: Subscription, s: Stream, pos: nat)
    ensures Churned(sub, s, pos) <==>
      IsPlanId(sub.planId) && CensoredLifetime(sub, MonthsAlive(s, pos, ChurnHazard(sub.planId)).0)
  {
  }

  /** The subscription of customer `c`, numbered `id`, on plan `pid`; its survival loop reads from `pos`. */
  function Subscribe(s: Stream, pos: nat, id: int, c: Customer, pid: int): (r: (Subscription, nat))
    requires WellFormed(c) && IsPlanId(pid)
    ensures pos < r.1 <= pos + MaxMonths
    ensures r.1 == MonthsAlive(s, pos, ChurnHazard(pid)).1
    ensures Churned(r.0, s, pos)
    ensures Simulated(r.0, id, c, pid)
  {
    var (months, next) := MonthsAlive(s, pos, ChurnHazard(pid));
    var (end, status) := Censor(c.signupDate, months);
    var sub := Subscription(id, c.id, pid, c.signupDate, end, status);
    assert CensoredLifetime(sub, months);
    (sub, next)
  }

  /** `sub` is subscription `id` of customer `c` on plan `pid`: it starts on
      the signup date, its status and end date agree, and they are those of
      some lifetime of 1 to `MaxMonths` months. */
  predicate Simulated(sub: Subscription, id: int, c: Customer, pid: int) {
    && sub.id == id
    && sub.customerId == c.id
    && sub.planId == pid
    && sub.startDate == c.signupDate
    && Consistent(sub)
    && exists months: nat :: 1 <= months <= MaxMonths && CensoredLifetime(sub, months)
  }

  predicate AllPlans(pids: seq<int>) {
    forall i :: 0 <= i < |pids| ==> IsPlanId(pids[i])
  }

  /** Where the survival loop of customer `i` starts when the loops of
      customers on plans `pids` run one after another from `pos`. */
  function LoopStart(s: Stream, pos: nat, pids: seq<int>, i: nat): nat
    requires AllPlans(pids) && i <= |pids|
    decreases i
  {
    if i == 0 then pos
    else LoopStart(s, MonthsAlive(s, pos, ChurnHazard(pids[0])).1, pids[1..], i - 1)
  }

  /** One subscription per customer, numbered from `nextId`, each started on
      its customer's signup date with the plan chosen for it; the survival
      loops run customer by customer, each on its own plan's hazard. */
  function SimulateSubscriptions(s: Stream, pos: nat, cs: seq<Customer>, pids: seq<int>, nextId: int)
    : (r: (seq<Subscription>, nat))
    requires |pids| == |cs|
    requires forall i :: 0 <= i < |cs| ==> WellFormed(cs[i]) && IsPlanId(pids[i])
    ensures |r.0| == |cs|
    ensures forall i :: 0 <= i < |cs| ==> Simulated(r.0[i], nextId + i, cs[i], pids[i])
    ensures AllChurned(r.0, s, pos, pids)
    ensures r.1 == LoopStart(s, pos, pids, |cs|)
    ensures pos + |cs| <= r.1
    ensures r.1 <= pos + MaxMonths * |cs|
    decreases |cs|
  {
    if |cs| == 0 then ([], pos)
    else
      var (sub, p1) := Subscribe(s, pos, nextId, cs[0], pids[0]);
      var (rest, p2) := SimulateSubscriptions(s, p1, cs[1..], pids[1..], nextId + 1);
      PrependSimulated(sub, rest, cs, pids, nextId);
      assert ([sub] + rest)[1..] == rest;
      LoopStartStep(s, pos, pids, |pids|);
      ([sub] + rest, p2)
  }

  /** The survival loops of `subs`, on plans `pids`, ran one after another
      from `pos`, each deciding its own subscription's end date and status. */
  predicate AllChurned(subs: seq<Subscription>, s: Stream, pos: nat, pids: seq<int>)
    decreases |subs|
  {
    && |subs| == |pids|
    && AllPlans(pids)
    && (|subs| > 0 ==>
          && subs[0].planId == pids[0]
          && Churned(subs[0], s, pos)
          && AllChurned(subs[1..], s, MonthsAlive(s, pos, ChurnHazard(pids[0])).1, pids[1..]))
  }

  /** Subscription `i`'s end date and status come from the survival loop
      that starts where the loops of the customers before it stopped. */
  lemma {:induction false} AllChurnedAt(subs: seq<Subscription>, s: Stream, pos: nat, pids: seq<int>, i: nat)
    requires AllChurned(subs, s, pos, pids)
    requires i < |subs|
    ensures Churned(subs[i], s, LoopStart(s, pos, pids, i))
    decreases i
  {
    if i == 0 {
      assert LoopStart(s, pos, pids, 0) == pos;
    } else {
      var next := MonthsAlive(s, pos, ChurnHazard(pids[0])).1;
      var tail := subs[1..];
      assert AllChurned(tail, s, next, pids[1..]);
      AllChurnedAt(tail, s, next, pids[1..], i - 1);
      var q := LoopStart(s, next, pids[1..], i - 1);
      LoopStartStep(s, pos, pids, i);
      ChurnedSame(tail[i - 1], subs[i], s, q, LoopStart(s, pos, pids, i));
    }
  }

  /** Moves a `Churned` fact between equal arguments as one step, so the
      caller's proof does not unfold the survival loop again. */
  lemma ChurnedSame(a: Subscription, b: Subscription, s: Stream, p: nat, q: nat)
    requires a == b && p == q
    requires Churned(a, s, p)
    ensures Churned(b, s, q)
  {
  }

  lemma LoopStartStep(s: Stream, pos: nat, pids: seq<int>, i: nat)
    requires AllPlans(pids) && 1 <= i <= |pids|
    ensures LoopStart(s, pos, pids, i) == LoopStart(s, MonthsAlive(s, pos, ChurnHazard(pids[0])).1, pids[1..], i - 1)
  {
  }

  lemma PrependSimulated(sub: Subscription, rest: seq<Subscription>, cs: seq<Customer>, pids: seq<int>, nextId: int)
    requires |cs| == |pids| == |rest| + 1
    requires Simulated(sub, nextId, cs[0], pids[0])
    requires forall i :: 0 <= i < |rest| ==> Simulated(rest[i], nextId + 1 + i, cs[1..][i], pids[1..][i])
    ensures forall i :: 0 <= i < |cs| ==> Simulated(([sub] + rest)[i], nextId + i, cs[i], pids[i])
  {
    var subs := [sub] + rest;
    forall i | 1 <= i < |cs|
      ensures Simulated(subs[i], nextId + i, cs[i], pids[i])
    {
      assert subs[i] == rest[i - 1] && cs[i] == cs[1..][i - 1] && pids[i] == pids[1..][i - 1];
    }
  }
}

=== FILE: visits.dfy ===
/** Visit simulation: each subscription's days, from its start to its
    effective end inclusive, are walked in order. Each day reads one draw; a
    draw below `VisitRate` makes a visit that reads three more (check-in
    hour, check-in minute, then the normal duration sample). Visits are
    numbered consecutively across all subscriptions. */
module Visits {
  import opened Calendar
  import opened Draws
  import opened Params
  import opened Optional
  import opened Subscriptions

  /** A row of the visits table. The checkout time is not stored: it is
      derived from the check-in and the duration (`Checkout`). */
  datatype Visit = Visit(id: int, customerId: int, checkin: DateTime, durationMin: int)

  /** Draws read by a day with a visit: the day draw, then three for the visit
      (hour, minute, duration), written `3 * visits` in the position arithmetic.
      A day without a visit reads only the day draw. */
  const DrawsPerVisitDay := 4

  /** The last day a subscription's visits may fall on: its end date, or the
      horizon's last day while it is still open (the missing end date taken
      as "not ended yet"). For a consistent subscription it is a valid day
      no later than the horizon's end, and a recorded end lies after the start. */
  function EffectiveEnd(sub: Subscription): (end: Date)
    ensures sub.endDate.Some? ==> end == sub.endDate.value
    ensures Consistent(sub) && sub.status == Active ==> end == HorizonEnd
    ensures Consistent(sub) ==> Valid(end) && Ordinal(end) <= Ordinal(HorizonEnd)
    ensures Consistent(sub) && sub.endDate.Some? ==> Ordinal(sub.startDate) < Ordinal(end)
  {
    HorizonIsTwoYears();
    match sub.endDate
    case Some(end) => end
    case None => HorizonEnd
  }

  /** A visit on a plan of tier `access`: an allowed check-in hour, a minute
      of the hour, and a clipped whole-minute duration. */
  predicate ValidVisit(v: Visit, access: Access) {
    && ValidTime(v.checkin)
    && v.checkin.hour in CheckinHours(access)
    && MinDuration <= v.durationMin <= MaxDuration
  }

  /** `checkin + Timedelta(minutes=duration)`: the checkout is a valid
      timestamp exactly the visit's duration after its check-in. */
  function Checkout(v: Visit): (t: DateTime)
    requires ValidTime(v.checkin) && 0 <= v.durationMin
    ensures ValidTime(t)
    ensures Minutes(t) == Minutes(v.checkin) + v.durationMin
    ensures v.durationMin < 1440 ==> Ordinal(v.checkin.date) <= Ordinal(t.date) <= Ordinal(v.checkin.date) + 1
  {
    AddMinutes(v.checkin, v.durationMin)
  }

  function Day(v: Visit): int
    requires ValidTime(v.checkin)
  {
    Ordinal(v.checkin.date)
  }

  /** Visits on strictly increasing days: in date order, never two on one day. */
  predicate Chronological(vs: seq<Visit>) {
    forall i, j :: 0 <= i < j < |vs| ==>
      ValidTime(vs[i].checkin) && ValidTime(vs[j].checkin) && Day(vs[i]) < Day(vs[j])
  }

  /** `sample_checkin_time`: an hour drawn with equal weight from the tier's
      candidates, then a minute in [0, 60). */
  function SampleCheckinTime(hourDraw: real, minuteDraw: real, access: Access): (r: (int, int))
    ensures r.0 in CheckinHours(access)
    ensures access == OffPeak ==> 7 <= r.0 <= 16
    ensures access == Full ==> 6 <= r.0 <= 21
    ensures 0 <= r.1 < 60
  {
    var hours := CheckinHours(access);
    (hours[Pick(hourDraw, Uniform(|hours|))], IntIn(minuteDraw, 0, 60))
  }

  /** Every candidate hour of the tier is drawn by some unit draw. */
  lemma CheckinHourOnto(access: Access, h: int)
    requires h in CheckinHours(access)
    ensures exists x: real :: 0.0 <= x < 1.0 && SampleCheckinTime(x, 0.0, access).0 == h
  {
    var hours := CheckinHours(access);
    var i :| 0 <= i < |hours| && hours[i] == h;
    PickUniformOnto(|hours|, i);
    var x: real :| 0.0 <= x < 1.0 && Pick(x, Uniform(|hours|)) == i;
    assert SampleCheckinTime(x, 0.0, access).0 == h;
  }

  /** `int(np.clip(x, 30, 150))`: a whole number of minutes in [30, 150]. */
  function Duration(x: real): (d: int)
    ensures MinDuration <= d <= MaxDuration
  {
    Truncate(Clip(x, MinDuration as real, MaxDuration as real))
  }

  /** Below the range the duration is 30, above it 150, and inside it the
      sample truncated to whole minutes; every value in [30, 150] occurs. */
  lemma DurationMeaning(x: real)
    ensures x <= MinDuration as real ==> Duration(x) == MinDuration
    ensures x >= MaxDuration as real ==> Duration(x) == MaxDuration
    ensures MinDuration as real <= x <= MaxDuration as real ==>
      Duration(x) as real <= x < Duration(x) as real + 1.0
    ensures MinDuration <= x.Floor <= MaxDuration ==> Duration(x) == x.Floor
  {
  }

  /** One day `d` of the walk for customer `cid`: a visit numbered `id`, or none. Returns the next position. */
  function VisitDay(s: Stream, pos: nat, cid: int, access: Access, d: Date, id: int): (r: (Option<Visit>, nat))
    requires Valid(d)
    ensures r.0.None? <==> !(s(pos) < VisitRate)
    ensures r.0.None? ==> r.1 == pos + 1
    ensures r.0.Some? ==>
      && r.1 == pos + DrawsPerVisitDay
      && var v := r.0.value;
         && v.id == id && v.customerId == cid && v.checkin.date == d && ValidVisit(v, access)
         && v.checkin.hour == SampleCheckinTime(s(pos + 1), s(pos + 2), access).0
         && v.checkin.minute == IntIn(s(pos + 2), 0, 60)
         && v.durationMin == Duration(s(pos + 3))
  {
    if s(pos) < VisitRate then
      var (hour, minute) := SampleCheckinTime(s(pos + 1), s(pos + 2), access);
      var duration := Duration(s(pos + 3));
      var checkin := DateTime(d, hour, minute);
      (Some(Visit(id, cid, checkin, duration)), pos + DrawsPerVisitDay)
    else
      (None, pos + 1)
  }

  /** The visit of a day as a sequence of zero or one visits. */
  function AsSeq(v: Option<Visit>): (r: seq<Visit>)
    ensures |r| <= 1 && (|r| == 1 <==> v.Some?)
    ensures v.Some? ==> r[0] == v.value
  {
    if v.Some? then [v.value] else []
  }

  /** Number of days from `first` to `last`, both included; zero when `last` is earlier. */
  function Span(first: Date, last: Date): nat
    requires Valid(first) && Valid(last)
  {
    if Ordinal(last) < Ordinal(first) then 0 else Ordinal(last) - Ordinal(first) + 1
  }

  /** `v` is a well-formed visit of customer `cid` checked in on a day with ordinal in [lo, hi]. */
  predicate Fits(v: Visit, cid: int, access: Access, lo: int, hi: int) {
    && ValidVisit(v, access)
    && v.customerId == cid
    && lo <= Day(v) <= hi
  }

  /** `vs` is a walk's output over the days [lo, hi]: fitting visits, in date
      order, numbered consecutively from `nextId`. */
  predicate Walked(vs: seq<Visit>, cid: int, access: Access, lo: int, hi: int, nextId: int) {
    && (forall k :: 0 <= k < |vs| ==> Fits(vs[k], cid, access, lo, hi) && vs[k].id == nextId + k)
    && Chronological(vs)
  }

  /** A walk over [lo + 1, hi] preceded by at most one visit on day `lo` is a walk over [lo, hi]. */
  lemma PrependDay(first: seq<Visit>, rest: seq<Visit>, cid: int, access: Access, lo: int, next: int, hi: int, nextId: int)
    requires next == lo + 1
    requires |first| <= 1
    requires forall k :: 0 <= k < |first| ==> Fits(first[k], cid, access, lo, lo) && first[k].id == nextId
    requires lo <= hi
    requires Walked(rest, cid, access, next, hi, nextId + |first|)
    ensures Walked(first + rest, cid, access, lo, hi, nextId)
  {
    var vs := first + rest;
    forall k | 0 <= k < |vs|
      ensures Fits(vs[k], cid, access, lo, hi) && vs[k].id == nextId + k
    {
      if k >= |first| {
        assert vs[k] == rest[k - |first|];
      }
    }
    forall i, j | 0 <= i < j < |vs|
      ensures ValidTime(vs[i].checkin) && ValidTime(vs[j].checkin) && Day(vs[i]) < Day(vs[j])
    {
      assert vs[j] == rest[j - |first|];
      if i >= |first| {
        assert vs[i] == rest[i - |first|];
      }
    }
  }

  /** Stream position of the day draw for the day `offset` days into a walk
      that starts reading at `pos`, after `visitsBefore` visits: each earlier
      day read one draw, and each earlier visit three more. */
  function DayDraw(pos: nat, offset: nat, visitsBefore: nat): nat {
    pos + offset + 3 * visitsBefore
  }

  /** Day `t` falls between the first `m` visits of `vs` and the rest: no
      visit is on `t`, and exactly `m` of them come before it. */
  predicate SplitAt(vs: seq<Visit>, t: int, m: int) {
    && 0 <= m <= |vs|
    && (forall j :: 0 <= j < m ==> ValidTime(vs[j].checkin) && Day(vs[j]) < t)
    && (forall j :: m <= j < |vs| ==> ValidTime(vs[j].checkin) && t < Day(vs[j]))
  }

  /** The check-in minute and the duration of `v` are the ones read by the
      second and third draws after its day draw at `q`. */
  predicate TimesDrawn(v: Visit, s: Stream, q: nat) {
    && v.checkin.minute == IntIn(s(q + 2), 0, 60)
    && v.durationMin == Duration(s(q + 3))
  }

  /** Every visit of a walk from day `lo` that reads from `pos` had its day
      draw below `VisitRate`, and the draws after it gave its minute and
      duration. */
  predicate VisitsDrawn(vs: seq<Visit>, s: Stream, pos: nat, lo: int) {
    forall j :: 0 <= j < |vs| ==>
      && ValidTime(vs[j].checkin)
      && lo <= Day(vs[j])
      && s(DayDraw(pos, Day(vs[j]) - lo, j)) < VisitRate
      && TimesDrawn(vs[j], s, DayDraw(pos, Day(vs[j]) - lo, j))
  }

  /** Every day of [lo, hi] without a visit, after `m` earlier visits, had
      its day draw at or above `VisitRate`. */
  predicate GapsDrawn(vs: seq<Visit>, s: Stream, pos: nat, lo: int, hi: int) {
    forall t, m :: lo <= t <= hi && 0 <= m <= |vs| && SplitAt(vs, t, m) ==>
      s(DayDraw(pos, t - lo, m)) >= VisitRate
  }

  /** The visits of a walk over the days [lo, hi] that reads from `pos` are
      exactly the ones its day draws decide, both ways. */
  predicate DrawDecided(vs: seq<Visit>, s: Stream, pos: nat, lo: int, hi: int) {
    VisitsDrawn(vs, s, pos, lo) && GapsDrawn(vs, s, pos, lo, hi)
  }

  /** Day `lo`'s draw decided `first`; prepended to a walk over the later
      days whose draws decided it, the whole walk is decided by its draws. */
  lemma PrependDayDrawn(first: seq<Visit>, rest: seq<Visit>, s: Stream, pos: nat, p1: nat, lo: int, next: int, hi: int)
    requires next == lo + 1
    requires |first| <= 1
    requires |first| == 1 <==> s(pos) < VisitRate
    requires forall k :: 0 <= k < |first| ==> ValidTime(first[k].checkin) && Day(first[k]) == lo
    requires forall k :: 0 <= k < |first| ==> TimesDrawn(first[k], s, pos)
    requires p1 == pos + 1 + 3 * |first|
    requires forall j :: 0 <= j < |rest| ==> ValidTime(rest[j].checkin) && next <= Day(rest[j])
    requires DrawDecided(rest, s, p1, next, hi)
    ensures DrawDecided(first + rest, s, pos, lo, hi)
  {
    PrependVisitDraws(first, rest, s, pos, p1, lo, hi);
    PrependGapDraws(first, rest, s, pos, p1, lo, hi);
  }

  lemma PrependVisitDraws(first: seq<Visit>, rest: seq<Visit>, s: Stream, pos: nat, p1: nat, lo: int, hi: int)
    requires |first| <= 1
    requires |first| == 1 ==> s(pos) < VisitRate
    requires forall k :: 0 <= k < |first| ==> ValidTime(first[k].checkin) && Day(first[k]) == lo
    requires forall k :: 0 <= k < |first| ==> TimesDrawn(first[k], s, pos)
    requires p1 == pos + 1 + 3 * |first|
    requires VisitsDrawn(rest, s, p1, lo + 1)
    ensures VisitsDrawn(first + rest, s, pos, lo)
  {
    var vs := first + rest;
    forall j | 0 <= j < |vs|
      ensures && ValidTime(vs[j].checkin) && lo <= Day(vs[j])
              && s(DayDraw(pos, Day(vs[j]) - lo, j)) < VisitRate
              && TimesDrawn(vs[j], s, DayDraw(pos, Day(vs[j]) - lo, j))
    {
      PrependVisitDrawAt(first, rest, s, pos, p1, lo, j);
    }
  }

  lemma PrependVisitDrawAt(first: seq<Visit>, rest: seq<Visit>, s: Stream, pos: nat, p1: nat, lo: int, j: int)
    requires |first| <= 1
    requires |first| == 1 ==> s(pos) < VisitRate
    requires forall k :: 0 <= k < |first| ==> ValidTime(first[k].checkin) && Day(first[k]) == lo
    requires forall k :: 0 <= k < |first| ==> TimesDrawn(first[k], s, pos)
    requires p1 == pos + 1 + 3 * |first|
    requires VisitsDrawn(rest, s, p1, lo + 1)
    requires 0 <= j < |first + rest|
    ensures var v := (first + rest)[j];
      && ValidTime(v.checkin) && lo <= Day(v)
      && s(DayDraw(pos, Day(v) - lo, j)) < VisitRate
      && TimesDrawn(v, s, DayDraw(pos, Day(v) - lo, j))
  {
    var f := |first|;
    if j < f {
      assert (first + rest)[j] == first[j];
      DrawnAt(first[j], s, pos, DayDraw(pos, Day(first[j]) - lo, j));
    } else {
      var v := rest[j - f];
      assert (first + rest)[j] == v;
      ShiftDrawn(v, s, pos, p1, lo, Day(v), j, f);
    }
  }

  lemma DrawnAt(v: Visit, s: Stream, q: nat, q': nat)
    requires q == q' && s(q) < VisitRate && TimesDrawn(v, s, q)
    ensures s(q') < VisitRate && TimesDrawn(v, s, q')
  {
  }

  /** A visit on day `d` decided by the walk from day `lo + 1` that reads
      from `p1` is decided by the same draws seen from the walk from day `lo`
      that reads from `pos`, with `f` more visits before it. */
  lemma ShiftDrawn(v: Visit, s: Stream, pos: nat, p1: nat, lo: int, d: int, j: int, f: nat)
    requires p1 == pos + 1 + 3 * f && f <= j && lo + 1 <= d
    requires s(DayDraw(p1, d - (lo + 1), j - f)) < VisitRate
    requires TimesDrawn(v, s, DayDraw(p1, d - (lo + 1), j - f))
    ensures s(DayDraw(pos, d - lo, j)) < VisitRate && TimesDrawn(v, s, DayDraw(pos, d - lo, j))
  {
    DrawnAt(v, s, DayDraw(p1, d - (lo + 1), j - f), DayDraw(pos, d - lo, j));
  }

  lemma PrependGapDraws(first: seq<Visit>, rest: seq<Visit>, s: Stream, pos: nat, p1: nat, lo: int, hi: int)
    requires |first| <= 1
    requires |first| == 0 ==> s(pos) >= VisitRate
    requires forall k :: 0 <= k < |first| ==> ValidTime(first[k].checkin) && Day(first[k]) == lo
    requires p1 == pos + 1 + 3 * |first|
    requires forall j :: 0 <= j < |rest| ==> ValidTime(rest[j].checkin) && lo + 1 <= Day(rest[j])
    requires GapsDrawn(rest, s, p1, lo + 1, hi)
    ensures GapsDrawn(first + rest, s, pos, lo, hi)
  {
    var vs := first + rest;
    var f := |first|;
    forall t, m | lo <= t <= hi && 0 <= m <= |vs| && SplitAt(vs, t, m)
      ensures s(DayDraw(pos, t - lo, m)) >= VisitRate
    {
      if f == 1 {
        assert vs[0] == first[0];
      }
      if t == lo {
        if 0 < |vs| {
          assert ValidTime(vs[0].checkin) && lo <= Day(vs[0]) by {
            if f == 0 { assert vs[0] == rest[0]; }
          }
        }
        assert m == 0 && f == 0;
        assert DayDraw(pos, 0, 0) == pos;
      } else {
        assert f <= m;
        assert SplitAt(rest, t, m - f) by {
          forall j | 0 <= j < |rest|
            ensures vs[j + f] == rest[j]
          {
          }
        }
        assert DayDraw(pos, t - lo, m) == DayDraw(p1, t - (lo + 1), m - f);
      }
    }
  }

  /** The day walk from `d` to `last` inclusive. Visits fall inside the
      window, on strictly increasing days (so at most one a day), numbered
      from `nextId`; they are exactly the days whose draws select them; the
      walk reads one draw per day plus three per visit. */
  function WalkDays(s: Stream, pos: nat, cid: int, access: Access, d: Date, last: Date, nextId: int)
    : (r: (seq<Visit>, nat))
    requires Valid(d) && Valid(last)
    ensures Walked(r.0, cid, access, Ordinal(d), Ordinal(last), nextId)
    ensures DrawDecided(r.0, s, pos, Ordinal(d), Ordinal(last))
    ensures |r.0| <= Span(d, last)
    ensures r.1 == pos + Span(d, last) + 3 * |r.0|
    decreases Ordinal(last) - Ordinal(d)
  {
    if Ordinal(last) < Ordinal(d) then ([], pos)
    else
      var today := VisitDay(s, pos, cid, access, d, nextId);
      var first := AsSeq(today.0);
      var next := NextDay(d);
      var rest := WalkDays(s, today.1, cid, access, next, last, nextId + |first|);
      PrependDay(first, rest.0, cid, access, Ordinal(d), Ordinal(next), Ordinal(last), nextId);
      PrependDayDrawn(first, rest.0, s, pos, today.1, Ordinal(d), Ordinal(next), Ordinal(last));
      (first + rest.0, rest.1)
  }

  /** The visits of one subscription, from its start date to its effective end. */
  function SubscriptionVisits(s: Stream, pos: nat, sub: Subscription, nextId: int): (r: (seq<Visit>, nat))
    requires Consistent(sub)
    ensures forall k :: 0 <= k < |r.0| ==> BelongsTo(r.0[k], sub) && r.0[k].id == nextId + k
    ensures Chronological(r.0)
    ensures DrawDecided(r.0, s, pos, Ordinal(sub.startDate), Ordinal(EffectiveEnd(sub)))
    ensures r.1 == pos + Window(sub) + 3 * |r.0|
  {
    var access := PlanById(sub.planId).access;
    var r := WalkDays(s, pos, sub.customerId, access, sub.startDate, EffectiveEnd(sub), nextId);
    assert forall k :: 0 <= k < |r.0| ==> Fits(r.0[k], sub.customerId, access, Ordinal(sub.startDate), Ordinal(EffectiveEnd(sub)));
    r
  }

  /** Days a subscription can be visited on. */
  function Window(sub: Subscription): nat
    requires Consistent(sub)
  {
    Span(sub.startDate, EffectiveEnd(sub))
  }

  /** `v` is a visit of subscription `sub`: same customer, a check-in day
      inside the subscription's window, and well formed for its plan's tier. */
  predicate BelongsTo(v: Visit, sub: Subscription) {
    && Consistent(sub)
    && v.customerId == sub.customerId
    && ValidVisit(v, PlanById(sub.planId).access)
    && Ordinal(sub.startDate) <= Day(v) <= Ordinal(EffectiveEnd(sub))
  }

  function Flatten(groups: seq<seq<Visit>>): seq<Visit> {
    if |groups| == 0 then [] else groups[0] + Flatten(groups[1..])
  }

  function TotalWindow(subs: seq<Subscription>): nat
    requires forall i :: 0 <= i < |subs| ==> Consistent(subs[i])
  {
    if |subs| == 0 then 0 else Window(subs[0]) + TotalWindow(subs[1..])
  }

  /** Stream position where the walk of subscription `i` starts reading,
      for a visit pass that starts at `pos`: each earlier subscription read
      one draw per day of its window and three per visit of its group. */
  function GroupStart(pos: nat, subs: seq<Subscription>, groups: seq<seq<Visit>>, i: nat): nat
    requires forall j :: 0 <= j < |subs| ==> Consistent(subs[j])
    requires |groups| == |subs| && i <= |subs|
    decreases i
  {
    if i == 0 then pos
    else GroupStart(pos + Window(subs[0]) + 3 * |groups[0]|, subs[1..], groups[1..], i - 1)
  }

  /** Each group is decided by the draws of its own walk, the walks reading
      the stream one after another from `pos` in subscription order. */
  predicate GroupsDecided(groups: seq<seq<Visit>>, s: Stream, pos: nat, subs: seq<Subscription>)
    requires forall j :: 0 <= j < |subs| ==> Consistent(subs[j])
    decreases |subs|
  {
    && |groups| == |subs|
    && (|subs| > 0 ==>
          var sub := subs[0];
          assert Consistent(sub);
          && DrawDecided(groups[0], s, pos, Ordinal(sub.startDate), Ordinal(EffectiveEnd(sub)))
          && GroupsDecided(groups[1..], s, pos + Window(sub) + 3 * |groups[0]|, subs[1..]))
  }

  /** Group `i` is decided by the walk starting at `GroupStart`. */
  lemma {:induction false} GroupsDecidedAt(groups: seq<seq<Visit>>, s: Stream, pos: nat, subs: seq<Subscription>, i: nat)
    requires forall j :: 0 <= j < |subs| ==> Consistent(subs[j])
    requires GroupsDecided(groups, s, pos, subs)
    requires i < |subs|
    ensures DrawDecided(groups[i], s, GroupStart(pos, subs, groups, i), Ordinal(subs[i].startDate), Ordinal(EffectiveEnd(subs[i])))
    decreases i
  {
    if i > 0 {
      GroupsDecidedAt(groups[1..], s, pos + Window(subs[0]) + 3 * |groups[0]|, subs[1..], i - 1);
      assert groups[1..][i - 1] == groups[i] && subs[1..][i - 1] == subs[i];
    }
  }

  /** The visits of every subscription, in subscription order, grouped by
      subscription; the flattened table is numbered consecutively from
      `nextId`, and each group is exactly the days its own walk's draws select. */
  function AllVisits(s: Stream, pos: nat, subs: seq<Subscription>, nextId: int)
    : (r: (seq<seq<Visit>>, nat))
    requires forall i :: 0 <= i < |subs| ==> Consistent(subs[i])
    ensures |r.0| == |subs|
    ensures forall i, k :: 0 <= i < |subs| && 0 <= k < |r.0[i]| ==> BelongsTo(r.0[i][k], subs[i])
    ensures forall i :: 0 <= i < |subs| ==> Chronological(r.0[i])
    ensures forall k :: 0 <= k < |Flatten(r.0)| ==> Flatten(r.0)[k].id == nextId + k
    ensures r.1 == pos + TotalWindow(subs) + 3 * |Flatten(r.0)|
    ensures GroupsDecided(r.0, s, pos, subs)
    decreases |subs|
  {
    if |subs| == 0 then ([], pos)
    else
      var (own, p1) := SubscriptionVisits(s, pos, subs[0], nextId);
      var (rest, p2) := AllVisits(s, p1, subs[1..], nextId + |own|);
      PrependTable(own, rest, s, pos, p1, p2, subs, nextId);
      ([own] + rest, p2)
  }

  /** The step of `AllVisits`: the first subscription's visits in front of
      the table of the others make the table of all of them. */
  lemma PrependTable(own: seq<Visit>, rest: seq<seq<Visit>>, s: Stream, pos: nat, p1: nat, p2: nat,
                     subs: seq<Subscription>, nextId: int)
    requires |subs| > 0 && Consistent(subs[0])
    requires forall i :: 0 <= i < |subs| ==> Consistent(subs[i])
    requires forall k :: 0 <= k < |own| ==> BelongsTo(own[k], subs[0]) && own[k].id == nextId + k
    requires Chronological(own)
    requires DrawDecided(own, s, pos, Ordinal(subs[0].startDate), Ordinal(EffectiveEnd(subs[0])))
    requires p1 == pos + Window(subs[0]) + 3 * |own|
    requires |rest| == |subs[1..]|
    requires forall i, k :: 0 <= i < |subs[1..]| && 0 <= k < |rest[i]| ==> BelongsTo(rest[i][k], subs[1..][i])
    requires forall i :: 0 <= i < |subs[1..]| ==> Chronological(rest[i])
    requires forall k :: 0 <= k < |Flatten(rest)| ==> Flatten(rest)[k].id == nextId + |own| + k
    requires p2 == p1 + TotalWindow(subs[1..]) + 3 * |Flatten(rest)|
    requires GroupsDecided(rest, s, p1, subs[1..])
    ensures |[own] + rest| == |subs|
    ensures forall i, k :: 0 <= i < |subs| && 0 <= k < |([own] + rest)[i]| ==> BelongsTo(([own] + rest)[i][k], subs[i])
    ensures forall i :: 0 <= i < |subs| ==> Chronological(([own] + rest)[i])
    ensures forall k :: 0 <= k < |Flatten([own] + rest)| ==> Flatten([own] + rest)[k].id == nextId + k
    ensures p2 == pos + TotalWindow(subs) + 3 * |Flatten([own] + rest)|
    ensures GroupsDecided([own] + rest, s, pos, subs)
  {
    PrependGroup(own, rest, subs, nextId);
    PrependGroupDecided(own, rest, s, pos, p1, subs);
    PrependGroupEnd(own, rest, pos, p1, p2, subs);
  }

  lemma PrependGroupEnd(own: seq<Visit>, rest: seq<seq<Visit>>, pos: nat, p1: nat, p2: nat, subs: seq<Subscription>)
    requires |subs| > 0
    requires forall i :: 0 <= i < |subs| ==> Consistent(subs[i])
    requires Flatten([own] + rest) == own + Flatten(rest)
    requires p1 == pos + Window(subs[0]) + 3 * |own|
    requires p2 == p1 + TotalWindow(subs[1..]) + 3 * |Flatten(rest)|
    ensures p2 == pos + TotalWindow(subs) + 3 * |Flatten([own] + rest)|
  {
  }

  lemma PrependGroupDecided(own: seq<Visit>, rest: seq<seq<Visit>>, s: Stream, pos: nat, p1: nat, subs: seq<Subscription>)
    requires |subs| == |rest| + 1
    requires forall i :: 0 <= i < |subs| ==> Consistent(subs[i])
    requires p1 == pos + Window(subs[0]) + 3 * |own|
    requires DrawDecided(own, s, pos, Ordinal(subs[0].startDate), Ordinal(EffectiveEnd(subs[0])))
    requires GroupsDecided(rest, s, p1, subs[1..])
    ensures GroupsDecided([own] + rest, s, pos, subs)
  {
    assert ([own] + rest)[1..] == rest;
  }

  lemma PrependGroup(own: seq<Visit>, rest: seq<seq<Visit>>, subs: seq<Subscription>, nextId: int)
    requires |subs| == |rest| + 1
    requires forall k :: 0 <= k < |own| ==> BelongsTo(own[k], subs[0]) && own[k].id == nextId + k
    requires Chronological(own)
    requires forall i, k :: 0 <= i < |rest| && 0 <= k < |rest[i]| ==> BelongsTo(rest[i][k], subs[1..][i])
    requires forall i :: 0 <= i < |rest| ==> Chronological(rest[i])
    requires forall k :: 0 <= k < |Flatten(rest)| ==> Flatten(rest)[k].id == nextId + |own| + k
    ensures Flatten([own] + rest) == own + Flatten(rest)
    ensures forall i, k :: 0 <= i < |subs| && 0 <= k < |([own] + rest)[i]| ==> BelongsTo(([own] + rest)[i][k], subs[i])
    ensures forall i :: 0 <= i < |subs| ==> Chronological(([own] + rest)[i])
    ensures forall k :: 0 <= k < |Flatten([own] + rest)| ==> Flatten([own] + rest)[k].id == nextId + k
  {
    var groups := [own] + rest;
    assert groups[1..] == rest;
    assert Flatten(groups) == own + Flatten(rest);
    forall i | 1 <= i < |subs|
      ensures groups[i] == rest[i - 1] && subs[i] == subs[1..][i - 1]
    {
    }
    var flat := Flatten(groups);
    forall k | |own| <= k < |flat|
      ensures flat[k].id == nextId + k
    {
      assert flat[k] == Flatten(rest)[k - |own|];
    }
  }

  /** Every visit of the flattened table belongs to some group. */
  lemma {:induction false} FlattenMember(groups: seq<seq<Visit>>, k: nat) returns (i: nat, j: nat)
    requires k < |Flatten(groups)|
    ensures i < |groups| && j < |groups[i]| && Flatten(groups)[k] == groups[i][j]
    decreases |groups|
  {
    if k < |groups[0]| {
      i, j := 0, k;
    } else {
      var i', j' := FlattenMember(groups[1..], k - |groups[0]|);
      i, j := i' + 1, j';
      assert groups[1..][i'] == groups[i];
    }
  }

  /** No customer has two visits on one day. */
  predicate OneVisitPerDay(vs: seq<Visit>) {
    forall a, b :: 0 <= a < b < |vs| && vs[a].customerId == vs[b].customerId ==>
      ValidTime(vs[a].checkin) && ValidTime(vs[b].checkin) && Day(vs[a]) != Day(vs[b])
  }

  /** Flattening groups that each hold one customer's visits in date order,
      with no customer owning two groups, keeps at most one visit per
      customer per day. */
  lemma {:induction false} FlattenOneVisitPerDay(groups: seq<seq<Visit>>, owners: seq<int>)
    requires |groups| == |owners|
    requires forall i, k :: 0 <= i < |groups| && 0 <= k < |groups[i]| ==> groups[i][k].customerId == owners[i]
    requires forall i, j :: 0 <= i < j < |owners| ==> owners[i] != owners[j]
    requires forall i :: 0 <= i < |groups| ==> Chronological(groups[i])
    ensures OneVisitPerDay(Flatten(groups))
    decreases |groups|
  {
    if |groups| > 0 {
      var head, tail := groups[0], groups[1..];
      FlattenOneVisitPerDay(tail, owners[1..]);
      var vs := Flatten(groups);
      assert vs == head + Flatten(tail);
      forall a, b | 0 <= a < b < |vs| && vs[a].customerId == vs[b].customerId
        ensures ValidTime(vs[a].checkin) && ValidTime(vs[b].checkin) && Day(vs[a]) != Day(vs[b])
      {
        if b < |head| {
          assert vs[a] == head[a] && vs[b] == head[b];
        } else if a >= |head| {
          assert vs[a] == Flatten(tail)[a - |head|] && vs[b] == Flatten(tail)[b - |head|];
        } else {
          var i, j := FlattenMember(tail, b - |head|);
          assert false;
        }
      }
    }
  }
}
